=== FILE: README.md ===
# Binary search tree and AVL tree of `trees.py`, in Dafny

`trees.py` holds two in-memory ordered containers of values:

- `BinaryTree` is an unbalanced binary search tree. It offers recursive insertion, where an equal value is ignored, and recursive search. It lists its values by `preorder`, `inorder`, `postorder` and a queue-driven level order, `bfs`.
- `AVLTree` inherits search and the traversals. Its own insertion returns each rebuilt subtree on the way back up. On that unwind, every ancestor gets its stored `height` recomputed as `1 + max` of its children's. It is then passed through `_rebalance`, which applies one of four rotation cases.

This project models that code with immutable datatypes and pure functions. It proves the properties the code relies on:

- the strict search-tree ordering;
- the element set after an insertion;
- what each traversal lists;
- that rotations keep the inorder listing;
- that AVL insertion keeps stored heights correct and every node balanced;
- the logarithmic height bound that balance buys;
- the concrete runs of the file's demonstration block.

Files and modules:

- `sequences.dfy` (`Sequences`): strictly increasing and duplicate-free sequences. Two increasing sequences with the same members are equal.
- `binary_tree.dfy` (`BinaryTree`): the `Tree` datatype (a `TreeNode` or the empty tree `Nil`), its elements, size, height and ordering. Also `insert`/`_insert_recursive` and `search`/`_search_recursive`.
- `traversal.dfy` (`Traversal`): the three recursive traversals and `bfs`.
  - `bfs` is a `method` with the source's queue loop. Its measure is the total number of nodes in the queued subtrees, that is, the nodes not yet visited.
  - It is proved equal to `LevelOrder`, a level-by-level reference definition: the roots of one level, then the next level.
- `avl_tree.dfy` (`AvlTree`): `AvlNode` (an `AVLNode`, which stores its height) and `Shape`, which projects it onto the plain `Tree` on which search and the traversals run.
  - Also `_get_height`, `_get_balance`, both rotations, `_rebalance` and AVL insertion.
  - `Join(l, x, r)` is a node over `l` and `r` whose height is recomputed by the source's `1 + max(...)` rule. That is what each rotation and each unwinding step builds.
- `demo.dfy` (`Demo`): the insertions of the demonstration block and the listings they produce. It also includes the ascending insertions 1 to 5.

## Model

| member | source | states |
|---|---|---|
| `BinaryTree.Leaf` | trees.py:1-5 | A new `TreeNode` has no children, so it is a one-node ordered tree holding exactly its value. |
| `BinaryTree.InsertRecursive` | trees.py:17-27 | Descending from a present node keeps the root value. It adds exactly `v` to the element set and keeps an ordered tree ordered. |
| `BinaryTree.Insert` | trees.py:11-15 | After `insert` the tree is non-empty. Its elements are the old ones plus `v`, ordering is preserved, and an existing root keeps its value. |
| `BinaryTree.InsertPresentIsNoOp` | trees.py:18-27 | Inserting a value an ordered tree already holds returns the identical tree: neither the `<` nor the `>` branch changes anything. |
| `BinaryTree.InsertAbsentAddsOneNode` | trees.py:17-27 | Inserting a value an ordered tree lacks adds exactly one node. |
| `BinaryTree.InsertExtends` | trees.py:17-27 | Insertion does no rebalancing: every node of the old tree keeps its place and value in the new one, so the only change is a new node filling an empty child. With `Ordered`, that child lies on the search path for `v`. |
| `BinaryTree.Search` | trees.py:29-40 | `search` never reports a value the tree lacks, so the empty tree yields false. On an ordered tree it returns true exactly when `v` is an element. |
| `BinaryTree.InsertAll` | trees.py:11-27 | A sequence of insertions holds exactly the old elements and the inserted values, and keeps an ordered tree ordered. |
| `BinaryTree.BuildIsOrdered` | trees.py:11-27 | A tree built from the empty tree by insertions is ordered and holds exactly the inserted values. |
| `Traversal.Preorder` | trees.py:60-68 | `preorder` lists every value with its multiplicity, so its length is the node count. It is empty exactly for the empty tree and starts with the root value. |
| `Traversal.Inorder` | trees.py:70-78 | `inorder` lists every value with its multiplicity, so its length is the node count. It is empty exactly for the empty tree. |
| `Traversal.Postorder` | trees.py:80-88 | `postorder` lists every value with its multiplicity, so its length is the node count. It is empty exactly for the empty tree and ends with the root value. |
| `Traversal.OrderedIffInorderIncreasing` | trees.py:70-78 | A tree is ordered if and only if its inorder listing is strictly increasing. |
| `Traversal.InorderIsSortedElements` | trees.py:70-78 | On an ordered tree, `inorder` is strictly increasing and lists exactly the tree's elements. |
| `Traversal.InorderOfBuildIsSortedInput` | trees.py:70-78 | The inorder listing of a tree built by insertions equals the sorted, de-duplicated sequence of the inserted values. |
| `Traversal.QueueOrderIsLevels` | trees.py:49-56 | What the FIFO queue loop emits from any queue equals the level-by-level reference order of that queue's trees. |
| `Traversal.Bfs` | trees.py:42-58 | `bfs` returns the level order. It holds every value with its multiplicity, is `[]` exactly for the empty tree, and starts with the root value. |
| `Traversal.TraversalsListElementsOnce` | trees.py:42-88 | On an ordered tree, all four traversals list exactly the tree's elements, each once. |
| `AvlTree.Leaf` | trees.py:91-94 | A new `AVLNode` has height 1, which makes it a one-element AVL tree holding exactly its value. |
| `AvlTree.Join` | trees.py:110-111 | A node whose height is recomputed as `1 + max` of its children's has correct heights when its children do, and positive heights when its children do. |
| `AvlTree.GetHeight` | trees.py:114-117 | `_get_height` is the actual height of the subtree, 0 for an absent node, whenever the stored heights are correct. |
| `AvlTree.GetBalance` | trees.py:119-122 | `_get_balance` is the left subtree's actual height minus the right's, whenever stored heights are correct. |
| `AvlTree.HeightsCorrectIffRule` | trees.py:110-111 | Every stored height equals the actual height if and only if every node obeys the `1 + max(child heights)` rule. |
| `AvlTree.LeftRotate` | trees.py:124-133 | `_left_rotate` moves the three subtrees to their new places and keeps the inorder listing. When the three subtrees' heights are correct, the heights of the rebuilt `z` and `y` are correct too. |
| `AvlTree.RightRotate` | trees.py:135-144 | The mirror image of `LeftRotate`. |
| `AvlTree.SameInorderSameContents` | trees.py:124-144 | Trees with equal inorder listings have the same elements, and one is ordered exactly when the other is. This is why a rotation preserves ordering. |
| `AvlTree.RotationsDefined` | trees.py:146-157 | Once every stored height is positive, a balance beyond ±1 means the child each rotation case pivots on is present. The double cases also need the grandchild present, and it is. |
| `AvlTree.Rebalance` | trees.py:146-158 | `_rebalance` keeps the inorder listing and positive heights. A node whose balance is within ±1 is returned unchanged. |
| `AvlTree.RebalanceRestoresAvl` | trees.py:146-158 | On a node whose subtrees are balanced and differ in height by at most two, `_rebalance` yields correct heights and balance everywhere. It is at most one level lower. |
| `AvlTree.Insert` | trees.py:101-112 | AVL insertion returns a present node with positive heights. It adds exactly `v` to the elements and keeps an ordered tree ordered. |
| `AvlTree.InsertKeepsBalance` | trees.py:101-112 | Insertion keeps every stored height correct and every node balanced. The subtree's height grows by zero or one level. |
| `AvlTree.InsertKeepsAvl` | trees.py:98-112 | `insert` preserves ordering, correct heights and balance, and the elements become the old ones plus `v`. |
| `AvlTree.InsertPresentIsNoOp` | trees.py:108-109 | Inserting a value an AVL tree already holds returns the identical tree. |
| `AvlTree.InsertAll` | trees.py:98-99 | Successive insertions keep an AVL tree an AVL tree, holding the old elements and the inserted values. |
| `AvlTree.BalancedHeightBound` | trees.py:146-158 | A balanced tree of height h has at least 2^((h+1)/2) - 1 nodes, so its height is at most about twice log2 of its size. |
| `AvlTree.BuildIsAvl` | trees.py:98-112 | A tree built by AVL insertions is an AVL tree holding exactly the inserted values, with height logarithmic in its size. |
| `AvlTree.InorderOfBuildIsSortedInput` | trees.py:98-112 | The inorder listing of a tree built by AVL insertions equals the sorted, de-duplicated sequence of the inserted values. |
| `Demo.BinaryTreeExample` | trees.py:161-169 | Inserting 5, 3, 7, 2, 4, 6, 8 gives `bfs` [5,3,7,2,4,6,8], `preorder` [5,3,2,4,7,6,8], `inorder` [2,3,4,5,6,7,8] and `postorder` [2,4,3,6,8,7,5]. |
| `Demo.InsertAvlExample` | trees.py:172-174 | Inserting 10, 20, 30, 40, 50, 25 gives the tree with root 30 over (20 over 10, 25) and (40 over 50). Every stored height is as stated. |
| `Demo.AvlTreeExample` | trees.py:171-177 | That AVL tree has root 30 and height 3. Its `bfs` is [30,20,40,10,25,50] and its `inorder` is [10,20,25,30,40,50]. |
| `Demo.InsertIncreasing` | trees.py:98-112 | Inserting 1, 2, 3, 4, 5 into an AVL tree gives root 2 over the leaf 1 and over 4 (over the leaves 3 and 5). The stored heights are 3 at the root and 2 at node 4. |
| `Demo.IncreasingChain` | trees.py:17-27 | Inserting 1, 2, 3, 4, 5 into the unbalanced tree sends every value down the right spine: the result is a chain of height 5. |
| `Demo.IncreasingInsertions` | trees.py:98-112 | Inserting 1, 2, 3, 4, 5 into an AVL tree leaves height 3, while the unbalanced tree built from the same values has height 5; the AVL tree's `bfs` is [2,1,4,3,5]. |

## Left out

- The demonstration block's console output (trees.py:160-177) is not modelled. Its inputs appear as the `Demo` members and its printed lists as their postconditions.
- Object identity, aliasing and in-place mutation are not modelled.
  - Nodes are immutable values.
  - A function that rewires nodes and returns the new subtree root returns a new value instead.
  - A subtree that the source re-attaches unchanged is proved equal to the old one.
- Dynamic typing is not modelled: values are `int`, whose `<`, `>` and `==` are the total order the source assumes.
- Accumulators are not modelled as such. The traversals pass a list down and append to it; the model concatenates the sub-results, which yields the same list.
- `Traversal.Bfs` enqueues a node's present children as one concatenation `queue[1..] + Kids(current)`. The source appends them with two separate conditional appends, left before right. The resulting queue is the same.
- The cost of `queue.pop(0)` and the recursion depth are not modelled.
- `AvlTree.LeftRotate` and `AvlTree.RightRotate` require the pivot child to be present. In Python a missing pivot raises `AttributeError`, but `_rebalance` never calls a rotation on such a node; `AvlTree.RotationsDefined` proves this.
- `AvlTree.Rebalance` and `AvlTree.Insert` require every stored height to be at least 1. Every `AVLNode` the program creates or rebuilds has such a height; this precondition is what rules out a rotation on an absent child.
- `AvlTree.GetHeight` and `AvlTree.GetBalance` relate the stored heights to actual heights only when the stored heights are correct. For other trees they simply read the stored numbers, as the source does.
- `BinaryTree.InsertAbsentAddsOneNode` states only the node count. That no existing node moves is stated separately by `BinaryTree.InsertExtends`.
- `AVLTree.search`, `bfs` and the traversals are not modelled separately for the AVL tree. They are the `BinaryTree` ones applied to `Shape(n)`, because they read only values and links.
- `AvlTree.BalancedHeightBound` states the classic 2·log2 bound. It does not state the sharper 1.44·log2 bound.

=== FILE: avl_tree.dfy ===
/** The AVL tree of trees.py: nodes that store their subtree height, the balance factor,
    single and double rotations, the rebalancing step applied on the way back up from an
    insertion, and the invariants all of this keeps. Search and the traversals are those of
    the unbalanced tree, applied to `Shape(n)`. */
module AvlTree {
  import BinaryTree
  import Traversal
  import Sequences

  /** An `AVLNode`: a search-tree node that also stores the height of its subtree. */
  datatype AvlNode = Nil | Node(left: AvlNode, value: int, right: AvlNode, height: int)

  /** The plain search tree underneath: the same values, links and order, no heights. */
  function Shape(n: AvlNode): BinaryTree.Tree {
    match n
    case Nil => BinaryTree.Nil
    case Node(l, x, r, _) => BinaryTree.Node(Shape(l), x, Shape(r))
  }

  /** The values stored in the tree. */
  function Elements(n: AvlNode): set<int> {
    BinaryTree.Elements(Shape(n))
  }

  /** The search-tree ordering of the underlying shape. */
  predicate Ordered(n: AvlNode) {
    BinaryTree.Ordered(Shape(n))
  }

  /** `inorder`, inherited from the unbalanced tree. */
  function Inorder(n: AvlNode): seq<int> {
    Traversal.Inorder(Shape(n))
  }

  /** The actual height of the subtree, whatever its nodes store. */
  function ShapeHeight(n: AvlNode): nat {
    BinaryTree.Height(Shape(n))
  }

  /** `AVLNode(value)`: a new node has height 1, which makes it a one-element AVL tree. */
  function Leaf(v: int): (r: AvlNode)
    ensures IsAvl(r) && Elements(r) == {v}
  {
    assert Shape(Node(Nil, v, Nil, 1)) == BinaryTree.Leaf(v);
    Node(Nil, v, Nil, 1)
  }

  /** Every stored height is at least 1, as it is for every node the tree ever creates. */
  predicate PositiveHeights(n: AvlNode) {
    match n
    case Nil => true
    case Node(l, _, r, h) => h >= 1 && PositiveHeights(l) && PositiveHeights(r)
  }

  /** Every stored height equals the actual height of its subtree. */
  predicate HeightsCorrect(n: AvlNode)
    ensures HeightsCorrect(n) ==> PositiveHeights(n)
  {
    match n
    case Nil => true
    case Node(l, _, r, h) => h == ShapeHeight(n) && HeightsCorrect(l) && HeightsCorrect(r)
  }

  /** `_get_height`: the stored height, with an absent node counting as 0. */
  function GetHeight(n: AvlNode): (h: int)
    ensures HeightsCorrect(n) ==> h == ShapeHeight(n)
  {
    if n.Nil? then 0 else n.height
  }

  /** `_get_balance`: left height minus right height, 0 for an absent node. */
  function GetBalance(n: AvlNode): (b: int)
    ensures HeightsCorrect(n) && n.Node? ==> b == ShapeHeight(n.left) - ShapeHeight(n.right)
  {
    if n.Nil? then 0 else GetHeight(n.left) - GetHeight(n.right)
  }

  /** The bookkeeping rule the tree applies to a node: one more than the larger stored
      height of its children. */
  function RecomputedHeight(l: AvlNode, r: AvlNode): int {
    1 + BinaryTree.Max(GetHeight(l), GetHeight(r))
  }

  /** A node built over two subtrees with its height recomputed by the bookkeeping rule, as
      every unwinding step and both rotations do. The node's height is correct when its
      subtrees' are, and positive when theirs are. */
  function Join(l: AvlNode, x: int, r: AvlNode): (n: AvlNode)
    ensures HeightsCorrect(l) && HeightsCorrect(r) ==> HeightsCorrect(n)
    ensures PositiveHeights(l) && PositiveHeights(r) ==> PositiveHeights(n)
  {
    Node(l, x, r, RecomputedHeight(l, r))
  }

  /** Every node's stored height obeys the bookkeeping rule. */
  predicate HeightsFollowRule(n: AvlNode) {
    match n
    case Nil => true
    case Node(l, _, r, h) => h == RecomputedHeight(l, r) && HeightsFollowRule(l) && HeightsFollowRule(r)
  }

  /** The bookkeeping rule holds at every node exactly when every stored height is the
      actual height. */
  lemma {:induction false} HeightsCorrectIffRule(n: AvlNode)
    ensures HeightsCorrect(n) <==> HeightsFollowRule(n)
  {
    match n
    case Nil =>
    case Node(l, _, r, _) =>
      HeightsCorrectIffRule(l);
      HeightsCorrectIffRule(r);
  }

  /** The AVL balance condition, on shapes: at every node the heights of the two subtrees
      differ by at most one. */
  predicate Balanced(t: BinaryTree.Tree) {
    t.Node? ==>
      && -1 <= BinaryTree.Height(t.left) - BinaryTree.Height(t.right) <= 1
      && Balanced(t.left)
      && Balanced(t.right)
  }

  /** The three invariants an AVL tree keeps. */
  predicate IsAvl(n: AvlNode) {
    Ordered(n) && HeightsCorrect(n) && Balanced(Shape(n))
  }

  // ---------------------------------------------------------------------------------------
  // Rotations

  /** `_left_rotate`: the right child `y` takes `z`'s place, `z` becomes `y`'s left child and
      `y`'s former left subtree becomes `z`'s right subtree; `z`'s height is recomputed
      before `y`'s. */
  function LeftRotate(z: AvlNode): (y: AvlNode)
    requires z.Node? && z.right.Node?
    ensures y.Node? && y.left.Node?
    ensures y.left.left == z.left && y.left.right == z.right.left && y.right == z.right.right
    ensures Inorder(y) == Inorder(z)
    ensures PositiveHeights(z) ==> PositiveHeights(y)
    ensures HeightsCorrect(z.left) && HeightsCorrect(z.right.left) && HeightsCorrect(z.right.right)
            ==> HeightsCorrect(y)
  {
    var y := z.right;
    var t2 := y.left;
    var z' := Join(z.left, z.value, t2);
    var y' := Join(z', y.value, y.right);
    RotationKeepsInorder(Shape(z.left), z.value, Shape(t2), y.value, Shape(y.right));
    assert Shape(z) == BinaryTree.Node(Shape(z.left), z.value, BinaryTree.Node(Shape(t2), y.value, Shape(y.right)));
    assert Shape(y') == BinaryTree.Node(BinaryTree.Node(Shape(z.left), z.value, Shape(t2)), y.value, Shape(y.right));
    assert PositiveHeights(z) ==> PositiveHeights(y);
    y'
  }

  /** `_right_rotate`: the mirror image of `LeftRotate`, pivoting on the left child. */
  function RightRotate(z: AvlNode): (y: AvlNode)
    requires z.Node? && z.left.Node?
    ensures y.Node? && y.right.Node?
    ensures y.left == z.left.left && y.right.left == z.left.right && y.right.right == z.right
    ensures Inorder(y) == Inorder(z)
    ensures PositiveHeights(z) ==> PositiveHeights(y)
    ensures HeightsCorrect(z.left.left) && HeightsCorrect(z.left.right) && HeightsCorrect(z.right)
            ==> HeightsCorrect(y)
  {
    var y := z.left;
    var t3 := y.right;
    var z' := Join(t3, z.value, z.right);
    var y' := Join(y.left, y.value, z');
    RotationKeepsInorder(Shape(y.left), y.value, Shape(t3), z.value, Shape(z.right));
    assert Shape(z) == BinaryTree.Node(BinaryTree.Node(Shape(y.left), y.value, Shape(t3)), z.value, Shape(z.right));
    assert Shape(y') == BinaryTree.Node(Shape(y.left), y.value, BinaryTree.Node(Shape(t3), z.value, Shape(z.right)));
    assert PositiveHeights(z) ==> PositiveHeights(y);
    y'
  }

  /** Two trees with the same inorder listing hold the same elements, and one is ordered
      exactly when the other is. */
  lemma {:induction false} SameInorderSameContents(a: AvlNode, b: AvlNode)
    requires Inorder(a) == Inorder(b)
    ensures Elements(a) == Elements(b)
    ensures Ordered(a) <==> Ordered(b)
  {
    Traversal.SameInorderSameElements(Shape(a), Shape(b));
    Traversal.OrderedIffInorderIncreasing(Shape(a));
    Traversal.OrderedIffInorderIncreasing(Shape(b));
  }


  /** Both arrangements of three subtrees around two values have the same inorder listing. */
  lemma {:induction false} RotationKeepsInorder(a: BinaryTree.Tree, x: int, b: BinaryTree.Tree, y: int, c: BinaryTree.Tree)
    ensures
      var lower := BinaryTree.Node(BinaryTree.Node(a, x, b), y, c);
      var upper := BinaryTree.Node(a, x, BinaryTree.Node(b, y, c));
      Traversal.Inorder(lower) == Traversal.Inorder(upper)
  {
    var lower := BinaryTree.Node(BinaryTree.Node(a, x, b), y, c);
    var upper := BinaryTree.Node(a, x, BinaryTree.Node(b, y, c));
    var p, ib, ic := Traversal.Inorder(a) + [x], Traversal.Inorder(b), Traversal.Inorder(c);
    calc {
      Traversal.Inorder(lower);
      ((p + ib) + [y]) + ic;
      { Sequences.AppendAssoc(p + ib, [y], ic); }
      (p + ib) + ([y] + ic);
      { Sequences.AppendAssoc(p, ib, [y] + ic); }
      p + (ib + ([y] + ic));
      { Sequences.AppendAssoc(ib, [y], ic); }
      p + ((ib + [y]) + ic);
      Traversal.Inorder(upper);
    }
  }

  // ---------------------------------------------------------------------------------------
  // Rebalancing and insertion

  /** With positive stored heights, a stored height is positive exactly for a present node. */
  lemma {:induction false} GetHeightSign(n: AvlNode)
    requires PositiveHeights(n)
    ensures GetHeight(n) >= 0
    ensures n.Node? <==> GetHeight(n) > 0
  {
  }

  /** A balance factor beyond one means the heavier child, and in the double-rotation cases
      that child's inner child, is present: no rotation of `Rebalance` meets an absent node. */
  lemma {:induction false} RotationsDefined(n: AvlNode)
    requires PositiveHeights(n)
    ensures GetBalance(n) > 1 ==>
      n.Node? && n.left.Node? && (GetBalance(n.left) < 0 ==> n.left.right.Node?)
    ensures GetBalance(n) < -1 ==>
      n.Node? && n.right.Node? && (GetBalance(n.right) > 0 ==> n.right.left.Node?)
  {
    if n.Node? {
      GetHeightSign(n.left);
      GetHeightSign(n.right);
      if n.left.Node? {
        GetHeightSign(n.left.left);
        GetHeightSign(n.left.right);
      }
      if n.right.Node? {
        GetHeightSign(n.right.left);
        GetHeightSign(n.right.right);
      }
    }
  }

  /** Replacing a child by a subtree with the same inorder listing keeps the node's listing. */
  lemma {:induction false} SameChildInorder(n: AvlNode, n': AvlNode)
    requires n.Node? && n'.Node? && n'.value == n.value
    requires Inorder(n'.left) == Inorder(n.left) && Inorder(n'.right) == Inorder(n.right)
    ensures Inorder(n') == Inorder(n)
  {
  }

  /** `_rebalance`: the four rotation cases, tried in the source's order with its `>= 0` and
      `<= 0` tie-breaks; a node whose balance is within one is returned unchanged. */
  function Rebalance(n: AvlNode): (r: AvlNode)
    requires PositiveHeights(n)
    ensures n.Node? ==> r.Node?
    ensures PositiveHeights(r)
    ensures Inorder(r) == Inorder(n)
    ensures -1 <= GetBalance(n) <= 1 ==> r == n
  {
    var balance := GetBalance(n);
    RotationsDefined(n);
    if balance > 1 && GetBalance(n.left) >= 0 then
      RightRotate(n)
    else if balance < -1 && GetBalance(n.right) <= 0 then
      LeftRotate(n)
    else if balance > 1 && GetBalance(n.left) < 0 then
      var n' := n.(left := LeftRotate(n.left));
      assert PositiveHeights(n.left) && PositiveHeights(n.right);
      assert PositiveHeights(n');
      SameChildInorder(n, n');
      RightRotate(n')
    else if balance < -1 && GetBalance(n.right) > 0 then
      var n' := n.(right := RightRotate(n.right));
      assert PositiveHeights(n.left) && PositiveHeights(n.right);
      assert PositiveHeights(n');
      SameChildInorder(n, n');
      LeftRotate(n')
    else
      n
  }

  /** A node rebuilt over a left subtree that gained `v` holds the node's elements plus `v`,
      and is ordered if the node was. */
  lemma {:induction false} JoinGrownLeft(n: AvlNode, v: int, l: AvlNode)
    requires n.Node? && v < n.value
    requires Elements(l) == Elements(n.left) + {v}
    requires Ordered(n.left) ==> Ordered(l)
    ensures Elements(Join(l, n.value, n.right)) == Elements(n) + {v}
    ensures Ordered(n) ==> Ordered(Join(l, n.value, n.right))
  {
    var x := n.value;
    assert Shape(Join(l, x, n.right)) == BinaryTree.Node(Shape(l), x, Shape(n.right));
    assert Shape(n) == BinaryTree.Node(Shape(n.left), x, Shape(n.right));
    if Ordered(n) {
      forall y | y in Elements(l) ensures y < x {
        assert y == v || y in Elements(n.left);
      }
    }
  }

  /** The mirror image of `JoinGrownLeft`, for a right subtree that gained `v`. */
  lemma {:induction false} JoinGrownRight(n: AvlNode, v: int, r: AvlNode)
    requires n.Node? && v > n.value
    requires Elements(r) == Elements(n.right) + {v}
    requires Ordered(n.right) ==> Ordered(r)
    ensures Elements(Join(n.left, n.value, r)) == Elements(n) + {v}
    ensures Ordered(n) ==> Ordered(Join(n.left, n.value, r))
  {
    var x := n.value;
    assert Shape(Join(n.left, x, r)) == BinaryTree.Node(Shape(n.left), x, Shape(r));
    assert Shape(n) == BinaryTree.Node(Shape(n.left), x, Shape(n.right));
    if Ordered(n) {
      forall y | y in Elements(r) ensures x < y {
        assert y == v || y in Elements(n.right);
      }
    }
  }

  /** The unwinding step after an insertion into the left subtree: the node gets its new left
      subtree and a recomputed height and is rebalanced. The result holds the node's
      elements plus `v`, and is ordered if the node was. */
  lemma {:induction false} GrownLeftStep(n: AvlNode, v: int, l: AvlNode)
    requires n.Node? && v < n.value && PositiveHeights(n) && PositiveHeights(l)
    requires Elements(l) == Elements(n.left) + {v}
    requires Ordered(n.left) ==> Ordered(l)
    ensures PositiveHeights(Join(l, n.value, n.right))
    ensures
      var r := Rebalance(Join(l, n.value, n.right));
      && r.Node? && PositiveHeights(r)
      && Elements(r) == Elements(n) + {v}
      && (Ordered(n) ==> Ordered(r))
  {
    var m := Join(l, n.value, n.right);
    JoinGrownLeft(n, v, l);
    SameInorderSameContents(m, Rebalance(m));
  }

  /** The mirror image of `GrownLeftStep`, after an insertion into the right subtree. */
  lemma {:induction false} GrownRightStep(n: AvlNode, v: int, r: AvlNode)
    requires n.Node? && v > n.value && PositiveHeights(n) && PositiveHeights(r)
    requires Elements(r) == Elements(n.right) + {v}
    requires Ordered(n.right) ==> Ordered(r)
    ensures PositiveHeights(Join(n.left, n.value, r))
    ensures
      var r' := Rebalance(Join(n.left, n.value, r));
      && r'.Node? && PositiveHeights(r')
      && Elements(r') == Elements(n) + {v}
      && (Ordered(n) ==> Ordered(r'))
  {
    var m := Join(n.left, n.value, r);
    JoinGrownRight(n, v, r);
    SameInorderSameContents(m, Rebalance(m));
  }

  /** `_insert_recursive` of the AVL tree (and `insert`, which stores the returned root):
      descend as in the unbalanced tree, returning an equal value's subtree untouched; on the
      way back up recompute each ancestor's height and rebalance it. */
  function Insert(n: AvlNode, v: int): (r: AvlNode)
    requires PositiveHeights(n)
    ensures r.Node? && PositiveHeights(r)
    ensures Elements(r) == Elements(n) + {v}
    ensures Ordered(n) ==> Ordered(r)
  {
    if n.Nil? then
      Leaf(v)
    else if v < n.value then
      var l := Insert(n.left, v);
      GrownLeftStep(n, v, l);
      Rebalance(Join(l, n.value, n.right))
    else if v > n.value then
      var r := Insert(n.right, v);
      GrownRightStep(n, v, r);
      Rebalance(Join(n.left, n.value, r))
    else
      n
  }

  // ---------------------------------------------------------------------------------------
  // The AVL invariants

  /** A joined node over correctly annotated, balanced subtrees whose heights differ by at
      most one is correctly annotated and balanced, one level above its taller subtree. */
  lemma {:induction false} JoinBalanced(l: AvlNode, x: int, r: AvlNode)
    requires HeightsCorrect(l) && HeightsCorrect(r)
    requires Balanced(Shape(l)) && Balanced(Shape(r))
    requires -1 <= ShapeHeight(l) - ShapeHeight(r) <= 1
    ensures HeightsCorrect(Join(l, x, r)) && Balanced(Shape(Join(l, x, r)))
    ensures ShapeHeight(Join(l, x, r)) == 1 + BinaryTree.Max(ShapeHeight(l), ShapeHeight(r))
  {
  }

  /** The correctly annotated, balanced subtrees of a correctly annotated node with balanced
      children, and the heights they have. */
  lemma {:induction false} AvlChildren(n: AvlNode)
    requires n.Node? && HeightsCorrect(n) && Balanced(Shape(n))
    ensures HeightsCorrect(n.left) && HeightsCorrect(n.right)
    ensures Balanced(Shape(n.left)) && Balanced(Shape(n.right))
    ensures -1 <= ShapeHeight(n.left) - ShapeHeight(n.right) <= 1
    ensures ShapeHeight(n) == 1 + BinaryTree.Max(ShapeHeight(n.left), ShapeHeight(n.right))
    ensures GetBalance(n) == ShapeHeight(n.left) - ShapeHeight(n.right)
  {
  }

  /** A single rotation's result `Join(a, x, Join(b, y, c))`, where `a` is one taller than `c`
      and `b` is as tall as `c` or `a`, is balanced and two or three levels above `c`. */
  lemma {:induction false} SingleRotationBalanced(a: AvlNode, x: int, b: AvlNode, y: int, c: AvlNode)
    requires HeightsCorrect(a) && HeightsCorrect(b) && HeightsCorrect(c)
    requires Balanced(Shape(a)) && Balanced(Shape(b)) && Balanced(Shape(c))
    requires ShapeHeight(a) == ShapeHeight(c) + 1
    requires ShapeHeight(c) <= ShapeHeight(b) <= ShapeHeight(c) + 1
    ensures HeightsCorrect(Join(a, x, Join(b, y, c))) && Balanced(Shape(Join(a, x, Join(b, y, c))))
    ensures ShapeHeight(c) + 2 <= ShapeHeight(Join(a, x, Join(b, y, c))) <= ShapeHeight(c) + 3
  {
    JoinBalanced(b, y, c);
    JoinBalanced(a, x, Join(b, y, c));
  }

  /** The mirror image of `SingleRotationBalanced`: `Join(Join(a, x, b), y, c)` with `c` one
      taller than `a`. */
  lemma {:induction false} SingleRotationBalancedMirror(a: AvlNode, x: int, b: AvlNode, y: int, c: AvlNode)
    requires HeightsCorrect(a) && HeightsCorrect(b) && HeightsCorrect(c)
    requires Balanced(Shape(a)) && Balanced(Shape(b)) && Balanced(Shape(c))
    requires ShapeHeight(c) == ShapeHeight(a) + 1
    requires ShapeHeight(a) <= ShapeHeight(b) <= ShapeHeight(a) + 1
    ensures HeightsCorrect(Join(Join(a, x, b), y, c)) && Balanced(Shape(Join(Join(a, x, b), y, c)))
    ensures ShapeHeight(a) + 2 <= ShapeHeight(Join(Join(a, x, b), y, c)) <= ShapeHeight(a) + 3
  {
    JoinBalanced(a, x, b);
    JoinBalanced(Join(a, x, b), y, c);
  }

  /** A double rotation's result `Join(Join(a, x, b1), y, Join(b2, z, c))`, where `a` and `c`
      have the same height and `b1`, `b2` are at most one lower, is balanced and exactly two
      levels above `a`. */
  lemma {:induction false} DoubleRotationBalanced(a: AvlNode, x: int, b1: AvlNode, y: int, b2: AvlNode, z: int, c: AvlNode)
    requires HeightsCorrect(a) && HeightsCorrect(b1) && HeightsCorrect(b2) && HeightsCorrect(c)
    requires Balanced(Shape(a)) && Balanced(Shape(b1)) && Balanced(Shape(b2)) && Balanced(Shape(c))
    requires ShapeHeight(a) == ShapeHeight(c)
    requires ShapeHeight(a) - 1 <= ShapeHeight(b1) <= ShapeHeight(a)
    requires ShapeHeight(a) - 1 <= ShapeHeight(b2) <= ShapeHeight(a)
    ensures
      var t := Join(Join(a, x, b1), y, Join(b2, z, c));
      HeightsCorrect(t) && Balanced(Shape(t)) && ShapeHeight(t) == ShapeHeight(a) + 2
  {
    JoinBalanced(a, x, b1);
    JoinBalanced(b2, z, c);
    JoinBalanced(Join(a, x, b1), y, Join(b2, z, c));
  }

  /** The rotations rebuild their moved nodes by `Join`. */
  lemma {:induction false} RotationsJoin(n: AvlNode)
    requires n.Node?
    ensures n.left.Node? ==>
      RightRotate(n) == Join(n.left.left, n.left.value, Join(n.left.right, n.value, n.right))
    ensures n.right.Node? ==>
      LeftRotate(n) == Join(Join(n.left, n.value, n.right.left), n.right.value, n.right.right)
  {
  }

  /** What `Rebalance` builds from a node that leans left by more than one: the single right
      rotation when the left child does not lean right, the left-right double rotation
      otherwise. */
  lemma {:induction false} RebalanceLeftHeavy(n: AvlNode)
    requires PositiveHeights(n) && GetBalance(n) > 1
    ensures n.Node? && n.left.Node?
    ensures
      var l := n.left;
      GetBalance(l) >= 0 ==> Rebalance(n) == Join(l.left, l.value, Join(l.right, n.value, n.right))
    ensures
      var l := n.left;
      GetBalance(l) < 0 ==>
        && l.right.Node?
        && Rebalance(n) == Join(Join(l.left, l.value, l.right.left), l.right.value, Join(l.right.right, n.value, n.right))
  {
    RotationsDefined(n);
    RotationsJoin(n);
    var l := n.left;
    if GetBalance(l) < 0 {
      RotationsJoin(l);
      RotationsJoin(n.(left := LeftRotate(l)));
    }
  }

  /** The mirror image of `RebalanceLeftHeavy`, for a node leaning right by more than one. */
  lemma {:induction false} RebalanceRightHeavy(n: AvlNode)
    requires PositiveHeights(n) && GetBalance(n) < -1
    ensures n.Node? && n.right.Node?
    ensures
      var r := n.right;
      GetBalance(r) <= 0 ==> Rebalance(n) == Join(Join(n.left, n.value, r.left), r.value, r.right)
    ensures
      var r := n.right;
      GetBalance(r) > 0 ==>
        && r.left.Node?
        && Rebalance(n) == Join(Join(n.left, n.value, r.left.left), r.left.value, Join(r.left.right, r.value, r.right))
  {
    RotationsDefined(n);
    RotationsJoin(n);
    var r := n.right;
    if GetBalance(r) > 0 {
      RotationsJoin(r);
      RotationsJoin(n.(right := RightRotate(r)));
    }
  }

  /** The facts about a node leaning left by two over correctly annotated, balanced
      subtrees that both left-heavy cases start from. */
  lemma {:induction false} LeftHeavyFacts(n: AvlNode)
    requires n.Node? && n.left.Node? && HeightsCorrect(n)
    requires Balanced(Shape(n.left)) && Balanced(Shape(n.right))
    requires ShapeHeight(n.left) == ShapeHeight(n.right) + 2
    ensures HeightsCorrect(n.left.left) && HeightsCorrect(n.left.right) && HeightsCorrect(n.right)
    ensures Balanced(Shape(n.left.left)) && Balanced(Shape(n.left.right))
    ensures BinaryTree.Max(ShapeHeight(n.left.left), ShapeHeight(n.left.right)) == ShapeHeight(n.right) + 1
    ensures -1 <= ShapeHeight(n.left.left) - ShapeHeight(n.left.right) <= 1
    ensures GetBalance(n.left) == ShapeHeight(n.left.left) - ShapeHeight(n.left.right)
    ensures ShapeHeight(n) == ShapeHeight(n.right) + 3
    ensures GetBalance(n) == 2
  {
    AvlChildren(n.left);
  }

  /** The mirror image of `LeftHeavyFacts`. */
  lemma {:induction false} RightHeavyFacts(n: AvlNode)
    requires n.Node? && n.right.Node? && HeightsCorrect(n)
    requires Balanced(Shape(n.left)) && Balanced(Shape(n.right))
    requires ShapeHeight(n.right) == ShapeHeight(n.left) + 2
    ensures HeightsCorrect(n.left) && HeightsCorrect(n.right.left) && HeightsCorrect(n.right.right)
    ensures Balanced(Shape(n.right.left)) && Balanced(Shape(n.right.right))
    ensures BinaryTree.Max(ShapeHeight(n.right.left), ShapeHeight(n.right.right)) == ShapeHeight(n.left) + 1
    ensures -1 <= ShapeHeight(n.right.left) - ShapeHeight(n.right.right) <= 1
    ensures GetBalance(n.right) == ShapeHeight(n.right.left) - ShapeHeight(n.right.right)
    ensures ShapeHeight(n) == ShapeHeight(n.left) + 3
    ensures GetBalance(n) == -2
  {
    AvlChildren(n.right);
  }

  /** The left-left case: the single right rotation balances the node. */
  lemma {:induction false} LeftLeftRestored(n: AvlNode)
    requires n.Node? && n.left.Node? && PositiveHeights(n)
    requires HeightsCorrect(n.left.left) && HeightsCorrect(n.left.right) && HeightsCorrect(n.right)
    requires Balanced(Shape(n.left.left)) && Balanced(Shape(n.left.right)) && Balanced(Shape(n.right))
    requires ShapeHeight(n.left.left) == ShapeHeight(n.right) + 1
    requires ShapeHeight(n.right) <= ShapeHeight(n.left.right) <= ShapeHeight(n.left.left)
    requires GetBalance(n) > 1 && GetBalance(n.left) >= 0
    ensures HeightsCorrect(Rebalance(n)) && Balanced(Shape(Rebalance(n)))
    ensures ShapeHeight(n.right) + 2 <= ShapeHeight(Rebalance(n)) <= ShapeHeight(n.right) + 3
  {
    RebalanceLeftHeavy(n);
    SingleRotationBalanced(n.left.left, n.left.value, n.left.right, n.value, n.right);
  }

  /** The left-right case: the double rotation balances the node. */
  lemma {:induction false} LeftRightRestored(n: AvlNode)
    requires n.Node? && n.left.Node? && n.left.right.Node? && PositiveHeights(n)
    requires
      var a, b1, b2, c := n.left.left, n.left.right.left, n.left.right.right, n.right;
      && HeightsCorrect(a) && HeightsCorrect(b1) && HeightsCorrect(b2) && HeightsCorrect(c)
      && Balanced(Shape(a)) && Balanced(Shape(b1)) && Balanced(Shape(b2)) && Balanced(Shape(c))
      && ShapeHeight(a) == ShapeHeight(c)
      && ShapeHeight(c) - 1 <= ShapeHeight(b1) <= ShapeHeight(c)
      && ShapeHeight(c) - 1 <= ShapeHeight(b2) <= ShapeHeight(c)
    requires GetBalance(n) > 1 && GetBalance(n.left) < 0
    ensures HeightsCorrect(Rebalance(n)) && Balanced(Shape(Rebalance(n)))
    ensures ShapeHeight(Rebalance(n)) == ShapeHeight(n.right) + 2
  {
    RebalanceLeftHeavy(n);
    var l, b := n.left, n.left.right;
    DoubleRotationBalanced(l.left, l.value, b.left, b.value, b.right, n.value, n.right);
  }

  /** The right-right case, the mirror image of `LeftLeftRestored`. */
  lemma {:induction false} RightRightRestored(n: AvlNode)
    requires n.Node? && n.right.Node? && PositiveHeights(n)
    requires HeightsCorrect(n.left) && HeightsCorrect(n.right.left) && HeightsCorrect(n.right.right)
    requires Balanced(Shape(n.left)) && Balanced(Shape(n.right.left)) && Balanced(Shape(n.right.right))
    requires ShapeHeight(n.right.right) == ShapeHeight(n.left) + 1
    requires ShapeHeight(n.left) <= ShapeHeight(n.right.left) <= ShapeHeight(n.right.right)
    requires GetBalance(n) < -1 && GetBalance(n.right) <= 0
    ensures HeightsCorrect(Rebalance(n)) && Balanced(Shape(Rebalance(n)))
    ensures ShapeHeight(n.left) + 2 <= ShapeHeight(Rebalance(n)) <= ShapeHeight(n.left) + 3
  {
    RebalanceRightHeavy(n);
    SingleRotationBalancedMirror(n.left, n.value, n.right.left, n.right.value, n.right.right);
  }

  /** The right-left case, the mirror image of `LeftRightRestored`. */
  lemma {:induction false} RightLeftRestored(n: AvlNode)
    requires n.Node? && n.right.Node? && n.right.left.Node? && PositiveHeights(n)
    requires
      var a, b1, b2, c := n.left, n.right.left.left, n.right.left.right, n.right.right;
      && HeightsCorrect(a) && HeightsCorrect(b1) && HeightsCorrect(b2) && HeightsCorrect(c)
      && Balanced(Shape(a)) && Balanced(Shape(b1)) && Balanced(Shape(b2)) && Balanced(Shape(c))
      && ShapeHeight(a) == ShapeHeight(c)
      && ShapeHeight(a) - 1 <= ShapeHeight(b1) <= ShapeHeight(a)
      && ShapeHeight(a) - 1 <= ShapeHeight(b2) <= ShapeHeight(a)
    requires GetBalance(n) < -1 && GetBalance(n.right) > 0
    ensures HeightsCorrect(Rebalance(n)) && Balanced(Shape(Rebalance(n)))
    ensures ShapeHeight(Rebalance(n)) == ShapeHeight(n.left) + 2
  {
    RebalanceRightHeavy(n);
    var r, b := n.right, n.right.left;
    DoubleRotationBalanced(n.left, n.value, b.left, b.value, b.right, r.value, r.right);
  }

  /** Left-heavy by two: `Rebalance` restores the balance, losing at most one level. */
  lemma {:induction false} LeftHeavyRestored(n: AvlNode)
    requires n.Node? && n.left.Node? && HeightsCorrect(n)
    requires Balanced(Shape(n.left)) && Balanced(Shape(n.right))
    requires ShapeHeight(n.left) == ShapeHeight(n.right) + 2
    ensures HeightsCorrect(Rebalance(n)) && Balanced(Shape(Rebalance(n)))
    ensures ShapeHeight(n) - 1 <= ShapeHeight(Rebalance(n)) <= ShapeHeight(n)
  {
    LeftHeavyFacts(n);
    var l := n.left;
    if GetBalance(l) >= 0 {
      LeftLeftRestored(n);
    } else {
      assert l.right.Node?;
      AvlChildren(l.right);
      LeftRightRestored(n);
    }
  }

  /** Right-heavy by two: the mirror image of `LeftHeavyRestored`. */
  lemma {:induction false} RightHeavyRestored(n: AvlNode)
    requires n.Node? && n.right.Node? && HeightsCorrect(n)
    requires Balanced(Shape(n.left)) && Balanced(Shape(n.right))
    requires ShapeHeight(n.right) == ShapeHeight(n.left) + 2
    ensures HeightsCorrect(Rebalance(n)) && Balanced(Shape(Rebalance(n)))
    ensures ShapeHeight(n) - 1 <= ShapeHeight(Rebalance(n)) <= ShapeHeight(n)
  {
    RightHeavyFacts(n);
    var r := n.right;
    if GetBalance(r) <= 0 {
      RightRightRestored(n);
    } else {
      assert r.left.Node?;
      AvlChildren(r.left);
      RightLeftRestored(n);
    }
  }

  /** `_rebalance` on a node whose subtrees are balanced and differ in height by at most two
      (the situation after one insertion below it) leaves a correctly annotated, balanced
      tree, at most one level lower. */
  lemma {:induction false} RebalanceRestoresAvl(n: AvlNode)
    requires n.Node? && HeightsCorrect(n)
    requires Balanced(Shape(n.left)) && Balanced(Shape(n.right))
    requires -2 <= ShapeHeight(n.left) - ShapeHeight(n.right) <= 2
    ensures HeightsCorrect(Rebalance(n)) && Balanced(Shape(Rebalance(n)))
    ensures ShapeHeight(n) - 1 <= ShapeHeight(Rebalance(n)) <= ShapeHeight(n)
  {
    if ShapeHeight(n.left) == ShapeHeight(n.right) + 2 {
      LeftHeavyRestored(n);
    } else if ShapeHeight(n.right) == ShapeHeight(n.left) + 2 {
      RightHeavyRestored(n);
    } else {
      assert Rebalance(n) == n;
    }
  }

  /** Rebalancing a joined node over correctly annotated, balanced subtrees whose heights
      differ by at most two leaves a correctly annotated, balanced tree as tall as the taller
      subtree or one level taller, and exactly one level taller when no rotation was needed. */
  lemma {:induction false} RebalanceJoin(l: AvlNode, x: int, r: AvlNode)
    requires HeightsCorrect(l) && Balanced(Shape(l))
    requires HeightsCorrect(r) && Balanced(Shape(r))
    requires -2 <= ShapeHeight(l) - ShapeHeight(r) <= 2
    ensures
      var t := Rebalance(Join(l, x, r));
      var top := BinaryTree.Max(ShapeHeight(l), ShapeHeight(r));
      && HeightsCorrect(t) && Balanced(Shape(t))
      && top <= ShapeHeight(t) <= top + 1
      && (-1 <= ShapeHeight(l) - ShapeHeight(r) <= 1 ==> ShapeHeight(t) == top + 1)
  {
    var m := Join(l, x, r);
    assert ShapeHeight(m) == 1 + BinaryTree.Max(ShapeHeight(l), ShapeHeight(r));
    RebalanceRestoresAvl(m);
    if -1 <= ShapeHeight(l) - ShapeHeight(r) <= 1 {
      assert GetBalance(m) == ShapeHeight(l) - ShapeHeight(r);
      assert Rebalance(m) == m;
    }
  }

  /** The height arithmetic of one unwinding step: a node over siblings of heights `other`
      and `before` (differing by at most one), whose `before` child grew to `after`, one level
      at most, and was rebalanced to height `ht`, stays as tall or grows by one level. */
  lemma UnwoundHeight(other: int, before: int, after: int, ht: int)
    requires -1 <= other - before <= 1
    requires before <= after <= before + 1
    requires BinaryTree.Max(other, after) <= ht <= BinaryTree.Max(other, after) + 1
    requires -1 <= other - after <= 1 ==> ht == BinaryTree.Max(other, after) + 1
    ensures 1 + BinaryTree.Max(other, before) <= ht <= 2 + BinaryTree.Max(other, before)
  {
  }

  /** The unwinding step after an insertion into the left subtree keeps heights correct and
      the tree balanced, given that the subtree grew by at most one level. */
  lemma {:induction false} BalancedLeftStep(n: AvlNode, l: AvlNode)
    requires n.Node? && HeightsCorrect(n) && Balanced(Shape(n))
    requires HeightsCorrect(l) && Balanced(Shape(l))
    requires ShapeHeight(n.left) <= ShapeHeight(l) <= ShapeHeight(n.left) + 1
    ensures
      var r := Rebalance(Join(l, n.value, n.right));
      && HeightsCorrect(r) && Balanced(Shape(r))
      && ShapeHeight(n) <= ShapeHeight(r) <= ShapeHeight(n) + 1
  {
    AvlChildren(n);
    var t := Rebalance(Join(l, n.value, n.right));
    RebalanceJoin(l, n.value, n.right);
    var other, before, after := ShapeHeight(n.right), ShapeHeight(n.left), ShapeHeight(l);
    assert BinaryTree.Max(after, other) == BinaryTree.Max(other, after);
    assert BinaryTree.Max(before, other) == BinaryTree.Max(other, before);
    UnwoundHeight(other, before, after, ShapeHeight(t));
  }

  /** The mirror image of `BalancedLeftStep`, after an insertion into the right subtree. */
  lemma {:induction false} BalancedRightStep(n: AvlNode, r: AvlNode)
    requires n.Node? && HeightsCorrect(n) && Balanced(Shape(n))
    requires HeightsCorrect(r) && Balanced(Shape(r))
    requires ShapeHeight(n.right) <= ShapeHeight(r) <= ShapeHeight(n.right) + 1
    ensures
      var r' := Rebalance(Join(n.left, n.value, r));
      && HeightsCorrect(r') && Balanced(Shape(r'))
      && ShapeHeight(n) <= ShapeHeight(r') <= ShapeHeight(n) + 1
  {
    AvlChildren(n);
    var t := Rebalance(Join(n.left, n.value, r));
    RebalanceJoin(n.left, n.value, r);
    UnwoundHeight(ShapeHeight(n.left), ShapeHeight(n.right), ShapeHeight(r), ShapeHeight(t));
  }

  /** Insertion keeps every stored height correct and the tree balanced, and the height grows
      by at most one level: the invariant each ancestor's rebalancing relies on. */
  lemma {:induction false} InsertKeepsBalance(n: AvlNode, v: int)
    requires HeightsCorrect(n) && Balanced(Shape(n))
    ensures HeightsCorrect(Insert(n, v)) && Balanced(Shape(Insert(n, v)))
    ensures ShapeHeight(n) <= ShapeHeight(Insert(n, v)) <= ShapeHeight(n) + 1
  {
    if n.Nil? {
      assert Shape(Leaf(v)) == BinaryTree.Leaf(v);
    } else if v < n.value {
      AvlChildren(n);
      InsertKeepsBalance(n.left, v);
      InsertLeftKeepsBalance(n, v);
    } else if v > n.value {
      AvlChildren(n);
      InsertKeepsBalance(n.right, v);
      InsertRightKeepsBalance(n, v);
    }
  }

  /** The inductive step of `InsertKeepsBalance` for an insertion into the left subtree. */
  lemma {:induction false} InsertLeftKeepsBalance(n: AvlNode, v: int)
    requires n.Node? && v < n.value && HeightsCorrect(n) && Balanced(Shape(n))
    requires HeightsCorrect(Insert(n.left, v)) && Balanced(Shape(Insert(n.left, v)))
    requires ShapeHeight(n.left) <= ShapeHeight(Insert(n.left, v)) <= ShapeHeight(n.left) + 1
    ensures HeightsCorrect(Insert(n, v)) && Balanced(Shape(Insert(n, v)))
    ensures ShapeHeight(n) <= ShapeHeight(Insert(n, v)) <= ShapeHeight(n) + 1
  {
    BalancedLeftStep(n, Insert(n.left, v));
  }

  /** The inductive step of `InsertKeepsBalance` for an insertion into the right subtree. */
  lemma {:induction false} InsertRightKeepsBalance(n: AvlNode, v: int)
    requires n.Node? && v > n.value && HeightsCorrect(n) && Balanced(Shape(n))
    requires HeightsCorrect(Insert(n.right, v)) && Balanced(Shape(Insert(n.right, v)))
    requires ShapeHeight(n.right) <= ShapeHeight(Insert(n.right, v)) <= ShapeHeight(n.right) + 1
    ensures HeightsCorrect(Insert(n, v)) && Balanced(Shape(Insert(n, v)))
    ensures ShapeHeight(n) <= ShapeHeight(Insert(n, v)) <= ShapeHeight(n) + 1
  {
    BalancedRightStep(n, Insert(n.right, v));
  }

  /** Insertion preserves all three AVL invariants and adds exactly `v` to the elements. */
  lemma {:induction false} InsertKeepsAvl(n: AvlNode, v: int)
    requires IsAvl(n)
    ensures IsAvl(Insert(n, v))
    ensures Elements(Insert(n, v)) == Elements(n) + {v}
  {
    InsertKeepsBalance(n, v);
  }

  /** Inserting a value an AVL tree already holds returns the very same tree: no node is
      rebuilt and no rotation fires. */
  lemma {:induction false} InsertPresentIsNoOp(n: AvlNode, v: int)
    requires IsAvl(n) && v in Elements(n)
    ensures Insert(n, v) == n
  {
    var Node(l, x, r, _) := n;
    AvlChildren(n);
    assert Shape(n) == BinaryTree.Node(Shape(l), x, Shape(r));
    assert Elements(n) == Elements(l) + {x} + Elements(r);
    if v < x {
      assert v !in Elements(r);
      assert IsAvl(l) && v in Elements(l);
      InsertPresentIsNoOp(l, v);
      assert Join(l, x, r) == n;
      assert -1 <= GetBalance(n) <= 1;
    } else if v > x {
      assert v !in Elements(l);
      assert IsAvl(r) && v in Elements(r);
      InsertPresentIsNoOp(r, v);
      assert Join(l, x, r) == n;
      assert -1 <= GetBalance(n) <= 1;
    }
  }

  /** The tree obtained by inserting the values of `vs` into `n`, first to last. */
  function InsertAll(n: AvlNode, vs: seq<int>): (r: AvlNode)
    requires IsAvl(n)
    ensures IsAvl(r)
    ensures forall x :: x in Elements(r) <==> x in Elements(n) || x in vs
    decreases |vs|
  {
    if vs == [] then n
    else
      InsertKeepsAvl(n, vs[0]);
      var r := InsertAll(Insert(n, vs[0]), vs[1..]);
      assert forall x :: x in vs <==> x == vs[0] || x in vs[1..];
      r
  }

  /** An AVL tree built by inserting `vs` into an empty tree. */
  function Build(vs: seq<int>): AvlNode {
    InsertAll(Nil, vs)
  }

  // ---------------------------------------------------------------------------------------
  // The height guarantee

  /** Two to the power `k`. */
  function Pow2(k: nat): nat {
    if k == 0 then 1 else 2 * Pow2(k - 1)
  }

  /** Powers of two grow with the exponent. */
  lemma {:induction false} Pow2Monotone(j: nat, k: nat)
    requires j <= k
    ensures Pow2(j) <= Pow2(k)
    decreases k
  {
    if j < k {
      Pow2Monotone(j, k - 1);
    }
  }

  /** One level of height adds the halved bounds of a child one level lower and one two
      levels lower. */
  lemma Pow2HalfStep(h: nat)
    requires h >= 1
    ensures Pow2((h + 1) / 2) <= Pow2(h / 2) + Pow2((h - 1) / 2)
  {
    if h % 2 == 1 {
      assert (h + 1) / 2 == h / 2 + 1 && (h - 1) / 2 == h / 2;
    } else {
      assert (h + 1) / 2 == h / 2;
    }
  }

  /** A balanced tree of height h holds at least 2^((h+1)/2) - 1 nodes, so its height is at
      most about twice the binary logarithm of its size: the logarithmic search cost the
      AVL tree exists to guarantee. */
  lemma {:induction false} BalancedHeightBound(t: BinaryTree.Tree)
    requires Balanced(t)
    ensures Pow2((BinaryTree.Height(t) + 1) / 2) <= BinaryTree.Size(t) + 1
  {
    if t.Node? {
      var Node(l, _, r) := t;
      BalancedHeightBound(l);
      BalancedHeightBound(r);
      var hl, hr := BinaryTree.Height(l), BinaryTree.Height(r);
      var sl, sr := BinaryTree.Size(l), BinaryTree.Size(r);
      if hl >= hr {
        HeightBoundStep(hl, hr, sl, sr);
      } else {
        HeightBoundStep(hr, hl, sr, sl);
      }
    }
  }

  /** The arithmetic of one level of `BalancedHeightBound`: a node whose taller child has
      height `ht` and whose other child is at most one level shorter. */
  lemma HeightBoundStep(ht: nat, hs: nat, st: nat, ss: nat)
    requires hs <= ht <= hs + 1
    requires Pow2((ht + 1) / 2) <= st + 1 && Pow2((hs + 1) / 2) <= ss + 1
    ensures Pow2((ht + 2) / 2) <= st + ss + 2
  {
    var h := ht + 1;
    Pow2HalfStep(h);
    assert h / 2 == (ht + 1) / 2;
    Pow2Monotone((h - 1) / 2, (hs + 1) / 2);
  }

  /** The inorder listing of an AVL tree built by insertions is the sorted, de-duplicated
      sequence of the inserted values: it equals every strictly increasing sequence holding
      exactly those values. */
  lemma InorderOfBuildIsSortedInput(vs: seq<int>, sorted: seq<int>)
    requires Sequences.StrictlyIncreasing(sorted)
    requires forall x :: x in sorted <==> x in vs
    ensures Inorder(Build(vs)) == sorted
  {
    BuildIsAvl(vs);
    Traversal.InorderIsSortedElements(Shape(Build(vs)));
    Sequences.IncreasingUnique(Inorder(Build(vs)), sorted);
  }

  /** Every tree built by insertions is an AVL tree holding exactly the inserted values, whose
      height is logarithmic in its size. */
  lemma BuildIsAvl(vs: seq<int>)
    ensures IsAvl(Build(vs))
    ensures forall x :: x in Elements(Build(vs)) <==> x in vs
    ensures Pow2((ShapeHeight(Build(vs)) + 1) / 2) <= BinaryTree.Size(Shape(Build(vs))) + 1
  {
    BalancedHeightBound(Shape(Build(vs)));
  }
}

=== FILE: binary_tree.dfy ===
/** The unbalanced binary search tree of trees.py: nodes, the strict ordering invariant,
    recursive insertion (an equal value is ignored) and recursive search.
    A tree is identified with its root; the empty tree is `Nil`. */
module BinaryTree {

  /** A `TreeNode`: a value and two optional children. */
  datatype Tree = Nil | Node(left: Tree, value: int, right: Tree)

  /** `TreeNode(value)`: a freshly created node with no children, a one-element ordered
      tree. */
  function Leaf(v: int): (t: Tree)
    ensures Ordered(t) && Elements(t) == {v} && Size(t) == 1
  {
    Node(Nil, v, Nil)
  }

  function Max(a: int, b: int): int {
    if a >= b then a else b
  }

  /** The values stored in a tree, as a set. */
  function Elements(t: Tree): set<int> {
    match t
    case Nil => {}
    case Node(l, x, r) => Elements(l) + {x} + Elements(r)
  }

  /** The values stored in a tree, counted with multiplicity. */
  function Values(t: Tree): multiset<int> {
    match t
    case Nil => multiset{}
    case Node(l, x, r) => Values(l) + multiset{x} + Values(r)
  }

  /** Number of nodes. */
  function Size(t: Tree): nat {
    match t
    case Nil => 0
    case Node(l, _, r) => Size(l) + 1 + Size(r)
  }

  /** Number of nodes on the longest path from the root down; the empty tree has height 0. */
  function Height(t: Tree): nat {
    match t
    case Nil => 0
    case Node(l, _, r) => 1 + Max(Height(l), Height(r))
  }

  /** The strict search-tree ordering: at every node, everything on the left is smaller and
      everything on the right is larger than the node's value. */
  predicate Ordered(t: Tree) {
    match t
    case Nil => true
    case Node(l, x, r) =>
      && Ordered(l)
      && Ordered(r)
      && (forall y :: y in Elements(l) ==> y < x)
      && (forall y :: y in Elements(r) ==> x < y)
  }

  /** A value is an element exactly when it is counted in the tree's values. */
  lemma {:induction false} ElementsAreValues(t: Tree)
    ensures forall x :: x in Elements(t) <==> x in Values(t)
  {
    match t
    case Nil =>
    case Node(l, _, r) =>
      ElementsAreValues(l);
      ElementsAreValues(r);
  }

  /** `_insert_recursive`: descend from a present node; a missing child on the chosen side is
      replaced by a new leaf, and a value equal to the node's is ignored. */
  function InsertRecursive(node: Tree, v: int): (r: Tree)
    requires node.Node?
    ensures r.Node? && r.value == node.value
    ensures Elements(r) == Elements(node) + {v}
    ensures Ordered(node) ==> Ordered(r)
  {
    if v < node.value then
      if node.left.Nil? then node.(left := Leaf(v))
      else node.(left := InsertRecursive(node.left, v))
    else if v > node.value then
      if node.right.Nil? then node.(right := Leaf(v))
      else node.(right := InsertRecursive(node.right, v))
    else
      node
  }

  /** `BinaryTree.insert`: the first value becomes the root; later values descend from it. */
  function Insert(t: Tree, v: int): (r: Tree)
    ensures r.Node?
    ensures Elements(r) == Elements(t) + {v}
    ensures Ordered(t) ==> Ordered(r)
    ensures t.Node? ==> r.value == t.value
  {
    if t.Nil? then Leaf(v) else InsertRecursive(t, v)
  }

  /** Inserting a value that an ordered tree already holds returns the very same tree. */
  lemma {:induction false} InsertPresentIsNoOp(t: Tree, v: int)
    requires Ordered(t) && v in Elements(t)
    ensures Insert(t, v) == t
  {
    var Node(l, x, r) := t;
    if v < x {
      assert v in Elements(l);
      InsertPresentIsNoOp(l, v);
    } else if v > x {
      assert v in Elements(r);
      InsertPresentIsNoOp(r, v);
    }
  }

  /** Inserting a value that an ordered tree does not hold adds exactly one node. */
  lemma {:induction false} InsertAbsentAddsOneNode(t: Tree, v: int)
    requires Ordered(t) && v !in Elements(t)
    ensures Size(Insert(t, v)) == Size(t) + 1
  {
    if t.Node? {
      var Node(l, x, r) := t;
      if v < x {
        assert Ordered(l) && v !in Elements(l);
        InsertAbsentAddsOneNode(l, v);
        assert Insert(t, v) == Node(Insert(l, v), x, r);
      } else {
        assert Ordered(r) && v !in Elements(r);
        InsertAbsentAddsOneNode(r, v);
        assert Insert(t, v) == Node(l, x, Insert(r, v));
      }
    }
  }

  /** `r` grows `t` only at its empty children: every node of `t` is still in `r`, in the same
      place, holding the same value. */
  predicate Extends(r: Tree, t: Tree) {
    match t
    case Nil => true
    case Node(l, x, rt) => r.Node? && r.value == x && Extends(r.left, l) && Extends(r.right, rt)
  }

  lemma {:induction false} ExtendsRefl(t: Tree)
    ensures Extends(t, t)
  {
    if t.Node? {
      ExtendsRefl(t.left);
      ExtendsRefl(t.right);
    }
  }

  /** Insertion never moves a node: it only hangs the new leaf on an empty child along the
      search path. */
  lemma {:induction false} InsertExtends(t: Tree, v: int)
    ensures Extends(Insert(t, v), t)
  {
    match t
    case Nil =>
    case Node(l, x, r) =>
      if v < x {
        InsertExtends(l, v);
        ExtendsRefl(r);
        assert Insert(t, v) == Node(Insert(l, v), x, r);
      } else if v > x {
        ExtendsRefl(l);
        InsertExtends(r, v);
        assert Insert(t, v) == Node(l, x, Insert(r, v));
      } else {
        ExtendsRefl(t);
      }
  }

  /** `search`: descend comparing against each node; an absent node means not found. */
  function Search(t: Tree, v: int): (found: bool)
    ensures found ==> v in Elements(t)
    ensures Ordered(t) ==> (found <==> v in Elements(t))
  {
    match t
    case Nil => false
    case Node(l, x, r) =>
      if x == v then true
      else if v < x then Search(l, v)
      else Search(r, v)
  }

  /** The tree obtained by inserting the values of `vs` into `t`, first to last. */
  function InsertAll(t: Tree, vs: seq<int>): (r: Tree)
    ensures forall x :: x in Elements(r) <==> x in Elements(t) || x in vs
    ensures Ordered(t) ==> Ordered(r)
    decreases |vs|
  {
    if vs == [] then t
    else
      var r := InsertAll(Insert(t, vs[0]), vs[1..]);
      assert forall x :: x in vs <==> x == vs[0] || x in vs[1..];
      r
  }

  /** A tree built by inserting `vs` into an empty tree. */
  function Build(vs: seq<int>): Tree {
    InsertAll(Nil, vs)
  }

  /** Every tree built by insertions is ordered and holds exactly the inserted values. */
  lemma BuildIsOrdered(vs: seq<int>)
    ensures Ordered(Build(vs))
    ensures forall x :: x in Elements(Build(vs)) <==> x in vs
  {
  }
}

=== FILE: demo.dfy ===
/** The two example runs of trees.py: the same insertion sequences, and the listings they
    produce. */
module Demo {
  import BinaryTree
  import Traversal
  import AvlTree

  /** The unbalanced tree built by inserting 5, 3, 7, 2, 4, 6, 8 in turn: every value after
      the first lands on an empty child of the tree so far. */
  lemma ExampleTree()
    ensures
      var t := BinaryTree.Insert(BinaryTree.Insert(BinaryTree.Insert(BinaryTree.Insert(
        BinaryTree.Insert(BinaryTree.Insert(BinaryTree.Insert(BinaryTree.Nil, 5), 3), 7), 2), 4), 6), 8);
      t == ExampleShape()
  {
    ExampleFirstFour();
    var t4 := BinaryTree.Node(BinaryTree.Node(BinaryTree.Leaf(2), 3, BinaryTree.Nil), 5, BinaryTree.Leaf(7));
    var t5 := BinaryTree.Insert(t4, 4);
    assert t5 == BinaryTree.Node(Cherry(2, 3, 4), 5, BinaryTree.Leaf(7));
    var t6 := BinaryTree.Insert(t5, 6);
    assert t6 == BinaryTree.Node(Cherry(2, 3, 4), 5, BinaryTree.Node(BinaryTree.Leaf(6), 7, BinaryTree.Nil));
  }

  /** The example tree after its first four insertions, 5, 3, 7 and 2. */
  lemma ExampleFirstFour()
    ensures
      BinaryTree.Insert(BinaryTree.Insert(BinaryTree.Insert(BinaryTree.Insert(BinaryTree.Nil, 5), 3), 7), 2)
      == BinaryTree.Node(BinaryTree.Node(BinaryTree.Leaf(2), 3, BinaryTree.Nil), 5, BinaryTree.Leaf(7))
  {
    var t1 := BinaryTree.Insert(BinaryTree.Nil, 5);
    var t2 := BinaryTree.Insert(t1, 3);
    assert t2 == BinaryTree.Node(BinaryTree.Leaf(3), 5, BinaryTree.Nil);
    var t3 := BinaryTree.Insert(t2, 7);
    assert t3 == BinaryTree.Node(BinaryTree.Leaf(3), 5, BinaryTree.Leaf(7));
  }

  /** The tree of `ExampleTree`. */
  function ExampleShape(): BinaryTree.Tree {
    BinaryTree.Node(Cherry(2, 3, 4), 5, Cherry(6, 7, 8))
  }

  /** The breadth-first listing of the example tree, level by level. */
  lemma ExampleLevelOrder()
    ensures Traversal.LevelOrder(ExampleShape()) == [5, 3, 7, 2, 4, 6, 8]
  {
    assert [5] + [3, 7, 2, 4, 6, 8] == [5, 3, 7, 2, 4, 6, 8];
    var t := ExampleShape();
    ExampleLowerLevels();
    assert Traversal.Children([t]) == [t.left, t.right];
    assert Traversal.Roots([t]) == [5];
    assert Traversal.Levels([t]) == [5] + Traversal.Levels([t.left, t.right]);
  }

  /** The second and third levels of the example tree. */
  lemma ExampleLowerLevels()
    ensures Traversal.Levels([Cherry(2, 3, 4), Cherry(6, 7, 8)]) == [3, 7, 2, 4, 6, 8]
  {
    assert [3, 7] + [2, 4, 6, 8] == [3, 7, 2, 4, 6, 8];
    var l, r := Cherry(2, 3, 4), Cherry(6, 7, 8);
    var leaves := [BinaryTree.Leaf(2), BinaryTree.Leaf(4), BinaryTree.Leaf(6), BinaryTree.Leaf(8)];
    assert [l, r][1..] == [r];
    assert Traversal.Children([r]) == Traversal.Kids(r);
    assert Traversal.Children([l, r]) == leaves;
    assert Traversal.Roots([r]) == [7];
    assert Traversal.Roots([l, r]) == [3, 7];
    FourLeaves(2, 4, 6, 8);
    assert Traversal.Levels([l, r]) == [3, 7] + Traversal.Levels(leaves);
  }

  /** A level of four leaves lists their values and ends the level order. */
  lemma FourLeaves(a: int, b: int, c: int, d: int)
    ensures
      Traversal.Levels([BinaryTree.Leaf(a), BinaryTree.Leaf(b), BinaryTree.Leaf(c), BinaryTree.Leaf(d)])
      == [a, b, c, d]
  {
    var leaves := [BinaryTree.Leaf(a), BinaryTree.Leaf(b), BinaryTree.Leaf(c), BinaryTree.Leaf(d)];
    LeavesLevels(leaves);
    FourRoots(a, b, c, d);
  }

  /** The roots of four leaves are their four values. */
  lemma FourRoots(a: int, b: int, c: int, d: int)
    ensures Traversal.Roots([BinaryTree.Leaf(a), BinaryTree.Leaf(b), BinaryTree.Leaf(c), BinaryTree.Leaf(d)]) == [a, b, c, d]
  {
    var last := [BinaryTree.Leaf(d)];
    assert Traversal.Roots(last) == [d];
    LeafRootsCons(c, last);
    LeafRootsCons(b, [BinaryTree.Leaf(c)] + last);
    LeafRootsCons(a, [BinaryTree.Leaf(b)] + ([BinaryTree.Leaf(c)] + last));
    assert [BinaryTree.Leaf(a), BinaryTree.Leaf(b), BinaryTree.Leaf(c), BinaryTree.Leaf(d)]
        == [BinaryTree.Leaf(a)] + ([BinaryTree.Leaf(b)] + ([BinaryTree.Leaf(c)] + last));
  }

  /** A leaf in front of a level contributes its value in front of the level's roots. */
  lemma LeafRootsCons(v: int, rest: seq<BinaryTree.Tree>)
    ensures Traversal.Roots([BinaryTree.Leaf(v)] + rest) == [v] + Traversal.Roots(rest)
  {
    assert ([BinaryTree.Leaf(v)] + rest)[1..] == rest;
  }

  /** A three-node tree: a root with two leaf children. */
  function Cherry(a: int, x: int, b: int): BinaryTree.Tree {
    BinaryTree.Node(BinaryTree.Leaf(a), x, BinaryTree.Leaf(b))
  }

  /** The preorder listing of a three-node tree. */
  lemma CherryPreorder(a: int, x: int, b: int)
    ensures Traversal.Preorder(Cherry(a, x, b)) == [x, a, b]
  {
    var pa, pb := Traversal.Preorder(BinaryTree.Leaf(a)), Traversal.Preorder(BinaryTree.Leaf(b));
    assert pa == [a] + [] + [];
    assert pb == [b] + [] + [];
    assert Traversal.Preorder(Cherry(a, x, b)) == [x] + pa + pb;
  }

  /** The inorder listing of a three-node tree. */
  lemma CherryInorder(a: int, x: int, b: int)
    ensures Traversal.Inorder(Cherry(a, x, b)) == [a, x, b]
  {
    var ia, ib := Traversal.Inorder(BinaryTree.Leaf(a)), Traversal.Inorder(BinaryTree.Leaf(b));
    assert ia == [] + [a] + [];
    assert ib == [] + [b] + [];
    assert Traversal.Inorder(Cherry(a, x, b)) == ia + [x] + ib;
  }

  /** The postorder listing of a three-node tree. */
  lemma CherryPostorder(a: int, x: int, b: int)
    ensures Traversal.Postorder(Cherry(a, x, b)) == [a, b, x]
  {
    var pa, pb := Traversal.Postorder(BinaryTree.Leaf(a)), Traversal.Postorder(BinaryTree.Leaf(b));
    assert pa == [] + [] + [a];
    assert pb == [] + [] + [b];
    assert Traversal.Postorder(Cherry(a, x, b)) == pa + pb + [x];
  }

  /** The preorder listing of the example tree. */
  lemma ExamplePreorder()
    ensures Traversal.Preorder(ExampleShape()) == [5, 3, 2, 4, 7, 6, 8]
  {
    assert [5] + [3, 2, 4] + [7, 6, 8] == [5, 3, 2, 4, 7, 6, 8];
    CherryPreorder(2, 3, 4);
    CherryPreorder(6, 7, 8);
    var l, r := Traversal.Preorder(Cherry(2, 3, 4)), Traversal.Preorder(Cherry(6, 7, 8));
    assert Traversal.Preorder(ExampleShape()) == [5] + l + r;
  }

  /** The inorder listing of the example tree. */
  lemma ExampleInorder()
    ensures Traversal.Inorder(ExampleShape()) == [2, 3, 4, 5, 6, 7, 8]
  {
    assert [2, 3, 4] + [5] + [6, 7, 8] == [2, 3, 4, 5, 6, 7, 8];
    CherryInorder(2, 3, 4);
    CherryInorder(6, 7, 8);
    var l, r := Traversal.Inorder(Cherry(2, 3, 4)), Traversal.Inorder(Cherry(6, 7, 8));
    assert Traversal.Inorder(ExampleShape()) == l + [5] + r;
  }

  /** The postorder listing of the example tree. */
  lemma ExamplePostorder()
    ensures Traversal.Postorder(ExampleShape()) == [2, 4, 3, 6, 8, 7, 5]
  {
    assert [2, 4, 3] + [6, 8, 7] + [5] == [2, 4, 3, 6, 8, 7, 5];
    CherryPostorder(2, 3, 4);
    CherryPostorder(6, 7, 8);
    var l, r := Traversal.Postorder(Cherry(2, 3, 4)), Traversal.Postorder(Cherry(6, 7, 8));
    assert Traversal.Postorder(ExampleShape()) == l + r + [5];
  }

  /** A level made of leaves lists their values and ends the level order. */
  lemma {:induction false} LeavesLevels(f: seq<BinaryTree.Tree>)
    requires forall i :: 0 <= i < |f| ==> f[i].Node? && f[i].left.Nil? && f[i].right.Nil?
    ensures Traversal.Children(f) == []
    ensures Traversal.Levels(f) == Traversal.Roots(f)
    decreases |f|
  {
    if f != [] {
      LeavesLevels(f[1..]);
      assert Traversal.Children(f) == [];
    }
  }

  /** `bt` of the example: insert 5, 3, 7, 2, 4, 6, 8 in turn, then list the tree by `bfs`,
      `preorder`, `inorder` and `postorder`. */
  method BinaryTreeExample() returns (bfs: seq<int>, pre: seq<int>, ino: seq<int>, post: seq<int>)
    ensures bfs == [5, 3, 7, 2, 4, 6, 8]
    ensures pre == [5, 3, 2, 4, 7, 6, 8]
    ensures ino == [2, 3, 4, 5, 6, 7, 8]
    ensures post == [2, 4, 3, 6, 8, 7, 5]
  {
    var t := BinaryTree.Nil;
    t := BinaryTree.Insert(t, 5);
    t := BinaryTree.Insert(t, 3);
    t := BinaryTree.Insert(t, 7);
    t := BinaryTree.Insert(t, 2);
    t := BinaryTree.Insert(t, 4);
    t := BinaryTree.Insert(t, 6);
    t := BinaryTree.Insert(t, 8);
    ExampleTree();
    ExampleLevelOrder();
    ExamplePreorder();
    ExampleInorder();
    ExamplePostorder();
    bfs := Traversal.Bfs(t);
    pre := Traversal.Preorder(t);
    ino := Traversal.Inorder(t);
    post := Traversal.Postorder(t);
  }

  // ---------------------------------------------------------------------------------------
  // The AVL example

  /** Inserting into a leaf hangs a new leaf on the matching side; no rotation can fire. */
  lemma InsertIntoLeaf(x: int, v: int)
    ensures v < x ==> AvlTree.Insert(AvlTree.Leaf(x), v) == AvlTree.Node(AvlTree.Leaf(v), x, AvlTree.Nil, 2)
    ensures v > x ==> AvlTree.Insert(AvlTree.Leaf(x), v) == AvlTree.Node(AvlTree.Nil, x, AvlTree.Leaf(v), 2)
  {
    if v < x {
      assert AvlTree.GetBalance(AvlTree.Join(AvlTree.Leaf(v), x, AvlTree.Nil)) == 1;
    } else if v > x {
      assert AvlTree.GetBalance(AvlTree.Join(AvlTree.Nil, x, AvlTree.Leaf(v))) == -1;
    }
  }

  /** The unwinding step at a node whose new subtree leaves it within one of balance: the node
      is rebuilt over that subtree with a recomputed height and not rotated. */
  lemma UnwindWithoutRotation(n: AvlTree.AvlNode, v: int, sub: AvlTree.AvlNode)
    requires n.Node? && AvlTree.PositiveHeights(n) && v != n.value
    requires v < n.value ==> AvlTree.Insert(n.left, v) == sub
    requires v > n.value ==> AvlTree.Insert(n.right, v) == sub
    requires v < n.value ==> -1 <= AvlTree.GetBalance(AvlTree.Join(sub, n.value, n.right)) <= 1
    requires v > n.value ==> -1 <= AvlTree.GetBalance(AvlTree.Join(n.left, n.value, sub)) <= 1
    ensures v < n.value ==> AvlTree.Insert(n, v) == AvlTree.Join(sub, n.value, n.right)
    ensures v > n.value ==> AvlTree.Insert(n, v) == AvlTree.Join(n.left, n.value, sub)
  {
  }

  /** A larger value inserted below a node with only a right leaf: the node leans right-right
      by two and a left rotation lifts the leaf's value. */
  lemma RightRightRotation(a: int, b: int, c: int)
    requires a < b < c
    ensures
      var t := AvlTree.Node(AvlTree.Nil, a, AvlTree.Leaf(b), 2);
      && AvlTree.PositiveHeights(t)
      && AvlTree.Insert(t, c) == AvlTree.Node(AvlTree.Leaf(a), b, AvlTree.Leaf(c), 2)
  {
    InsertIntoLeaf(b, c);
    var m := AvlTree.Join(AvlTree.Nil, a, AvlTree.Node(AvlTree.Nil, b, AvlTree.Leaf(c), 2));
    assert m == AvlTree.Node(AvlTree.Nil, a, AvlTree.Node(AvlTree.Nil, b, AvlTree.Leaf(c), 2), 3);
    assert AvlTree.GetBalance(m) == -2 && AvlTree.GetBalance(m.right) == -1;
    assert AvlTree.Join(AvlTree.Join(AvlTree.Nil, a, AvlTree.Nil), b, AvlTree.Leaf(c))
        == AvlTree.Node(AvlTree.Leaf(a), b, AvlTree.Leaf(c), 2);
    AvlTree.RebalanceRightHeavy(m);
    assert AvlTree.Insert(AvlTree.Node(AvlTree.Nil, a, AvlTree.Leaf(b), 2), c) == AvlTree.Rebalance(m);
  }

  /** Three increasing insertions: the third leans the root right-right by two and a left
      rotation lifts the middle value. */
  lemma IncreasingThree(a: int, b: int, c: int)
    requires a < b < c
    ensures
      AvlTree.Insert(AvlTree.Insert(AvlTree.Insert(AvlTree.Nil, a), b), c)
      == AvlTree.Node(AvlTree.Leaf(a), b, AvlTree.Leaf(c), 2)
  {
    InsertIntoLeaf(a, b);
    RightRightRotation(a, b, c);
  }

  /** A fourth, larger value: the root leans right by one only. */
  lemma IncreasingFour(a: int, b: int, c: int, d: int)
    requires a < b < c < d
    ensures
      var t := AvlTree.Node(AvlTree.Leaf(a), b, AvlTree.Leaf(c), 2);
      && AvlTree.PositiveHeights(t)
      && AvlTree.Insert(t, d) == AvlTree.Node(AvlTree.Leaf(a), b, AvlTree.Node(AvlTree.Nil, c, AvlTree.Leaf(d), 2), 3)
  {
    InsertIntoLeaf(c, d);
    UnwindWithoutRotation(AvlTree.Node(AvlTree.Leaf(a), b, AvlTree.Leaf(c), 2), d,
                          AvlTree.Node(AvlTree.Nil, c, AvlTree.Leaf(d), 2));
  }

  /** A fifth, larger value: the right child leans right-right by two and a left rotation
      lifts the fourth value above the third. */
  lemma IncreasingFive(a: int, b: int, c: int, d: int, e: int)
    requires a < b < c < d < e
    ensures
      var t := AvlTree.Node(AvlTree.Leaf(a), b, AvlTree.Node(AvlTree.Nil, c, AvlTree.Leaf(d), 2), 3);
      && AvlTree.PositiveHeights(t)
      && AvlTree.Insert(t, e) == AvlTree.Node(AvlTree.Leaf(a), b, AvlTree.Node(AvlTree.Leaf(c), d, AvlTree.Leaf(e), 2), 3)
  {
    RightRightRotation(c, d, e);
    UnwindWithoutRotation(AvlTree.Node(AvlTree.Leaf(a), b, AvlTree.Node(AvlTree.Nil, c, AvlTree.Leaf(d), 2), 3), e,
                          AvlTree.Node(AvlTree.Leaf(c), d, AvlTree.Leaf(e), 2));
  }

  /** Inserting 25: the root leans right by two with its right child leaning left, and the
      right-left double rotation lifts 30 to the root. */
  lemma AvlAfterSix()
    ensures
      AvlTree.Insert(AvlTree.Node(AvlTree.Leaf(10), 20, AvlTree.Node(AvlTree.Leaf(30), 40, AvlTree.Leaf(50), 2), 3), 25)
      == AvlTree.Node(AvlTree.Node(AvlTree.Leaf(10), 20, AvlTree.Leaf(25), 2), 30,
                      AvlTree.Node(AvlTree.Nil, 40, AvlTree.Leaf(50), 2), 3)
  {
    var r := AvlTree.Node(AvlTree.Leaf(30), 40, AvlTree.Leaf(50), 2);
    var r' := AvlTree.Node(AvlTree.Node(AvlTree.Leaf(25), 30, AvlTree.Nil, 2), 40, AvlTree.Leaf(50), 3);
    SixthBelowRoot();
    SixthAtRoot();
    assert AvlTree.Insert(AvlTree.Node(AvlTree.Leaf(10), 20, r, 3), 25)
        == AvlTree.Rebalance(AvlTree.Join(AvlTree.Leaf(10), 20, r'));
  }

  /** Inserting 25 below the root of the five-value tree: it lands left of 30, and 40 stays
      within one of balance. */
  lemma SixthBelowRoot()
    ensures
      AvlTree.Insert(AvlTree.Node(AvlTree.Leaf(30), 40, AvlTree.Leaf(50), 2), 25)
      == AvlTree.Node(AvlTree.Node(AvlTree.Leaf(25), 30, AvlTree.Nil, 2), 40, AvlTree.Leaf(50), 3)
  {
    InsertIntoLeaf(30, 25);
    UnwindWithoutRotation(AvlTree.Node(AvlTree.Leaf(30), 40, AvlTree.Leaf(50), 2), 25,
                          AvlTree.Node(AvlTree.Leaf(25), 30, AvlTree.Nil, 2));
  }

  /** The root 20 then leans right by two while its right child 40 leans left: the right-left
      double rotation lifts 30 to the root. */
  lemma SixthAtRoot()
    ensures
      var r' := AvlTree.Node(AvlTree.Node(AvlTree.Leaf(25), 30, AvlTree.Nil, 2), 40, AvlTree.Leaf(50), 3);
      AvlTree.Rebalance(AvlTree.Join(AvlTree.Leaf(10), 20, r'))
      == AvlTree.Node(AvlTree.Node(AvlTree.Leaf(10), 20, AvlTree.Leaf(25), 2), 30,
                      AvlTree.Node(AvlTree.Nil, 40, AvlTree.Leaf(50), 2), 3)
  {
    var r' := AvlTree.Node(AvlTree.Node(AvlTree.Leaf(25), 30, AvlTree.Nil, 2), 40, AvlTree.Leaf(50), 3);
    var m := AvlTree.Join(AvlTree.Leaf(10), 20, r');
    assert m == AvlTree.Node(AvlTree.Leaf(10), 20, r', 4);
    assert AvlTree.GetBalance(m) == -2 && AvlTree.GetBalance(r') == 1;
    SixthRotated();
    AvlTree.RebalanceRightHeavy(m);
  }

  /** The nodes the right-left double rotation builds for the sixth insertion, with their
      recomputed heights. */
  lemma SixthRotated()
    ensures
      AvlTree.Join(AvlTree.Join(AvlTree.Leaf(10), 20, AvlTree.Leaf(25)), 30, AvlTree.Join(AvlTree.Nil, 40, AvlTree.Leaf(50)))
      == AvlTree.Node(AvlTree.Node(AvlTree.Leaf(10), 20, AvlTree.Leaf(25), 2), 30,
                      AvlTree.Node(AvlTree.Nil, 40, AvlTree.Leaf(50), 2), 3)
  {
    assert AvlTree.Join(AvlTree.Leaf(10), 20, AvlTree.Leaf(25)) == AvlTree.Node(AvlTree.Leaf(10), 20, AvlTree.Leaf(25), 2);
    assert AvlTree.Join(AvlTree.Nil, 40, AvlTree.Leaf(50)) == AvlTree.Node(AvlTree.Nil, 40, AvlTree.Leaf(50), 2);
  }

  /** The shape of the AVL example's final tree: 30 over 20 (with 10 and 25) and 40 (with only
      50, on the right). */
  function AvlExampleShape(): BinaryTree.Tree {
    BinaryTree.Node(Cherry(10, 20, 25), 30, RightOnly(40, 50))
  }

  /** The breadth-first listing of the AVL example's final tree. */
  lemma AvlExampleLevelOrder()
    ensures Traversal.LevelOrder(AvlExampleShape()) == [30, 20, 40, 10, 25, 50]
  {
    assert [30] + [20, 40, 10, 25, 50] == [30, 20, 40, 10, 25, 50];
    var t := AvlExampleShape();
    AvlExampleLowerLevels();
    assert Traversal.Children([t]) == [t.left, t.right];
    assert Traversal.Roots([t]) == [30];
    assert Traversal.Levels([t]) == [30] + Traversal.Levels([t.left, t.right]);
  }

  /** The second and third levels of the AVL example's final tree. */
  lemma AvlExampleLowerLevels()
    ensures Traversal.Levels([Cherry(10, 20, 25), RightOnly(40, 50)]) == [20, 40, 10, 25, 50]
  {
    assert [20, 40] + [10, 25, 50] == [20, 40, 10, 25, 50];
    var l, r := Cherry(10, 20, 25), RightOnly(40, 50);
    var leaves := [BinaryTree.Leaf(10), BinaryTree.Leaf(25), BinaryTree.Leaf(50)];
    ThreeLeaves(10, 25, 50);
    assert [l, r][1..] == [r];
    assert Traversal.Children([r]) == Traversal.Kids(r);
    assert Traversal.Children([l, r]) == leaves;
    assert Traversal.Roots([r]) == [40];
    assert Traversal.Roots([l, r]) == [20, 40];
    assert Traversal.Levels([l, r]) == [20, 40] + Traversal.Levels(leaves);
  }

  /** A level of three leaves lists their values and ends the level order. */
  lemma ThreeLeaves(a: int, b: int, c: int)
    ensures Traversal.Levels([BinaryTree.Leaf(a), BinaryTree.Leaf(b), BinaryTree.Leaf(c)]) == [a, b, c]
  {
    var leaves := [BinaryTree.Leaf(a), BinaryTree.Leaf(b), BinaryTree.Leaf(c)];
    assert [a] + ([b] + [c]) == [a, b, c];
    LeavesLevels(leaves);
    assert leaves[1..] == [BinaryTree.Leaf(b), BinaryTree.Leaf(c)];
    assert leaves[1..][1..] == [BinaryTree.Leaf(c)];
    assert Traversal.Roots([BinaryTree.Leaf(c)]) == [c];
    assert Traversal.Roots(leaves[1..]) == [b] + [c];
    assert Traversal.Roots(leaves) == [a] + ([b] + [c]);
  }

  /** A node with only a right leaf child. */
  function RightOnly(x: int, b: int): BinaryTree.Tree {
    BinaryTree.Node(BinaryTree.Nil, x, BinaryTree.Leaf(b))
  }

  lemma RightOnlyInorder(x: int, b: int)
    ensures Traversal.Inorder(RightOnly(x, b)) == [x, b]
  {
    var ib := Traversal.Inorder(BinaryTree.Leaf(b));
    assert ib == [] + [b] + [];
    assert Traversal.Inorder(RightOnly(x, b)) == [] + [x] + ib;
  }

  /** The inorder listing of the AVL example's final tree. */
  lemma AvlExampleInorder()
    ensures Traversal.Inorder(AvlExampleShape()) == [10, 20, 25, 30, 40, 50]
  {
    assert [10, 20, 25] + [30] + [40, 50] == [10, 20, 25, 30, 40, 50];
    CherryInorder(10, 20, 25);
    RightOnlyInorder(40, 50);
    var l, r := Traversal.Inorder(Cherry(10, 20, 25)), Traversal.Inorder(RightOnly(40, 50));
    assert Traversal.Inorder(AvlExampleShape()) == l + [30] + r;
  }

  /** The insertion loop of `avl` in the example: 10, 20, 30, 40, 50, 25 in turn. Two single
      left rotations and one right-left double rotation leave 30 at the root. */
  method InsertAvlExample() returns (tree: AvlTree.AvlNode)
    ensures tree == AvlTree.Node(AvlTree.Node(AvlTree.Leaf(10), 20, AvlTree.Leaf(25), 2), 30,
                                 AvlTree.Node(AvlTree.Nil, 40, AvlTree.Leaf(50), 2), 3)
  {
    IncreasingThree(10, 20, 30);
    IncreasingFour(10, 20, 30, 40);
    IncreasingFive(10, 20, 30, 40, 50);
    AvlAfterSix();
    tree := AvlTree.Nil;
    tree := AvlTree.Insert(tree, 10);
    tree := AvlTree.Insert(tree, 20);
    tree := AvlTree.Insert(tree, 30);
    tree := AvlTree.Insert(tree, 40);
    tree := AvlTree.Insert(tree, 50);
    tree := AvlTree.Insert(tree, 25);
  }

  /** `avl` of the example, listed by `bfs` and `inorder`: 30 is the root of a tree of
      height 3. */
  method AvlTreeExample() returns (tree: AvlTree.AvlNode, bfs: seq<int>, ino: seq<int>)
    ensures tree.Node? && tree.value == 30
    ensures AvlTree.ShapeHeight(tree) == 3
    ensures bfs == [30, 20, 40, 10, 25, 50]
    ensures ino == [10, 20, 25, 30, 40, 50]
  {
    tree := InsertAvlExample();
    assert AvlTree.Shape(tree) == AvlExampleShape();
    assert BinaryTree.Height(AvlExampleShape()) == 3;
    AvlExampleLevelOrder();
    AvlExampleInorder();
    bfs := Traversal.Bfs(AvlTree.Shape(tree));
    ino := AvlTree.Inorder(tree);
  }

  /** Strictly increasing insertions 1, 2, 3, 4, 5: each right-right imbalance is repaired by a
      single left rotation. */
  method InsertIncreasing() returns (tree: AvlTree.AvlNode)
    ensures tree == AvlTree.Node(AvlTree.Leaf(1), 2, AvlTree.Node(AvlTree.Leaf(3), 4, AvlTree.Leaf(5), 2), 3)
  {
    IncreasingThree(1, 2, 3);
    IncreasingFour(1, 2, 3, 4);
    IncreasingFive(1, 2, 3, 4, 5);
    tree := AvlTree.Nil;
    tree := AvlTree.Insert(tree, 1);
    tree := AvlTree.Insert(tree, 2);
    tree := AvlTree.Insert(tree, 3);
    tree := AvlTree.Insert(tree, 4);
    tree := AvlTree.Insert(tree, 5);
  }

  /** The increasing insertions keep the height at 3, where the unbalanced tree would be a
      chain of height 5. */
  method IncreasingInsertions() returns (tree: AvlTree.AvlNode, bfs: seq<int>)
    ensures AvlTree.ShapeHeight(tree) == 3
    ensures BinaryTree.Height(BinaryTree.Build([1, 2, 3, 4, 5])) == 5
    ensures bfs == [2, 1, 4, 3, 5]
  {
    IncreasingChain();
    tree := InsertIncreasing();
    IncreasingShape();
    IncreasingLevelOrder();
    bfs := Traversal.Bfs(AvlTree.Shape(tree));
  }

  /** The unbalanced tree never rebalances: inserting 1, 2, 3, 4, 5 sends every value down
      the right spine, leaving a chain of height 5. */
  lemma IncreasingChain()
    ensures
      BinaryTree.Build([1, 2, 3, 4, 5])
      == BinaryTree.Node(BinaryTree.Nil, 1, BinaryTree.Node(BinaryTree.Nil, 2,
           BinaryTree.Node(BinaryTree.Nil, 3, BinaryTree.Node(BinaryTree.Nil, 4, BinaryTree.Leaf(5)))))
    ensures BinaryTree.Height(BinaryTree.Build([1, 2, 3, 4, 5])) == 5
  {
    var s := [1, 2, 3, 4, 5];
    assert s[1..] == [2, 3, 4, 5];
    assert s[1..][1..] == [3, 4, 5];
    assert s[1..][1..][1..] == [4, 5];
    assert s[1..][1..][1..][1..] == [5];
    assert s[1..][1..][1..][1..][1..] == [];
    ChainHeight(1, 2, 3, 4, 5);
  }

  /** A right-leaning chain of five nodes has height 5. */
  lemma ChainHeight(a: int, b: int, c: int, d: int, e: int)
    ensures
      BinaryTree.Height(BinaryTree.Node(BinaryTree.Nil, a, BinaryTree.Node(BinaryTree.Nil, b,
        BinaryTree.Node(BinaryTree.Nil, c, BinaryTree.Node(BinaryTree.Nil, d, BinaryTree.Leaf(e)))))) == 5
  {
    var t4 := BinaryTree.Node(BinaryTree.Nil, d, BinaryTree.Leaf(e));
    var t3 := BinaryTree.Node(BinaryTree.Nil, c, t4);
    var t2 := BinaryTree.Node(BinaryTree.Nil, b, t3);
    assert BinaryTree.Height(BinaryTree.Leaf(e)) == 1;
    assert BinaryTree.Height(t4) == 2;
    assert BinaryTree.Height(t3) == 3;
    assert BinaryTree.Height(t2) == 4;
  }

  /** The shape of the tree left by the increasing insertions, and its height. */
  lemma IncreasingShape()
    ensures
      var tree := AvlTree.Node(AvlTree.Leaf(1), 2, AvlTree.Node(AvlTree.Leaf(3), 4, AvlTree.Leaf(5), 2), 3);
      && AvlTree.Shape(tree) == BinaryTree.Node(BinaryTree.Leaf(1), 2, Cherry(3, 4, 5))
      && AvlTree.ShapeHeight(tree) == 3
  {
    LeafAndCherryShape(1, 2, 3, 4, 5);
  }

  /** A leaf beside a three-node tree: the shape of such an AVL tree, and its height. */
  lemma LeafAndCherryShape(a: int, x: int, b: int, y: int, c: int)
    ensures
      var tree := AvlTree.Node(AvlTree.Leaf(a), x, AvlTree.Node(AvlTree.Leaf(b), y, AvlTree.Leaf(c), 2), 3);
      && AvlTree.Shape(tree) == BinaryTree.Node(BinaryTree.Leaf(a), x, Cherry(b, y, c))
      && AvlTree.ShapeHeight(tree) == 3
  {
    LeafShape(a);
    LeafShape(b);
    LeafShape(c);
    CherryHeight(b, y, c);
  }

  /** A three-node tree has height 2. */
  lemma CherryHeight(a: int, x: int, b: int)
    ensures BinaryTree.Height(Cherry(a, x, b)) == 2
  {
    assert BinaryTree.Height(BinaryTree.Leaf(a)) == 1;
    assert BinaryTree.Height(BinaryTree.Leaf(b)) == 1;
  }

  /** A new AVL node has the shape of a new plain node. */
  lemma LeafShape(v: int)
    ensures AvlTree.Shape(AvlTree.Leaf(v)) == BinaryTree.Leaf(v)
  {
  }

  /** The breadth-first listing of the tree left by the increasing insertions. */
  lemma IncreasingLevelOrder()
    ensures Traversal.LevelOrder(BinaryTree.Node(BinaryTree.Leaf(1), 2, Cherry(3, 4, 5))) == [2, 1, 4, 3, 5]
  {
    LeafAndCherryLevelOrder(1, 2, 3, 4, 5);
  }

  /** A leaf beside a three-node tree is listed root, leaf, the other root, its two leaves. */
  lemma LeafAndCherryLevelOrder(a: int, x: int, b: int, y: int, c: int)
    ensures Traversal.LevelOrder(BinaryTree.Node(BinaryTree.Leaf(a), x, Cherry(b, y, c))) == [x, a, y, b, c]
  {
    var t := BinaryTree.Node(BinaryTree.Leaf(a), x, Cherry(b, y, c));
    LeafAndCherryLevels(a, b, y, c);
    assert Traversal.Children([t]) == [t.left, t.right];
    assert Traversal.Roots([t]) == [x];
  }

  /** The level below such a root: the leaf and the three-node tree, then the two leaves. */
  lemma LeafAndCherryLevels(a: int, b: int, y: int, c: int)
    ensures Traversal.Levels([BinaryTree.Leaf(a), Cherry(b, y, c)]) == [a, y, b, c]
  {
    var l, r := BinaryTree.Leaf(a), Cherry(b, y, c);
    TwoLeavesLevels(b, c);
    assert [l, r][1..] == [r];
    assert Traversal.Children([r]) == Traversal.Kids(r);
    assert Traversal.Children([l, r]) == [BinaryTree.Leaf(b), BinaryTree.Leaf(c)];
    assert Traversal.Roots([r]) == [y];
    assert Traversal.Roots([l, r]) == [a, y];
  }

  /** A level of two leaves lists their two values. */
  lemma TwoLeavesLevels(b: int, c: int)
    ensures Traversal.Levels([BinaryTree.Leaf(b), BinaryTree.Leaf(c)]) == [b, c]
  {
    var leaves := [BinaryTree.Leaf(b), BinaryTree.Leaf(c)];
    assert leaves[1..] == [BinaryTree.Leaf(c)];
    LeavesLevels(leaves);
    assert Traversal.Roots([BinaryTree.Leaf(c)]) == [c];
    assert Traversal.Roots(leaves) == [b] + [c];
  }
}

=== FILE: sequences.dfy ===
/** Facts about integer sequences used to state what the tree traversals produce. */
module Sequences {

  /** Every element is smaller than every element after it. */
  predicate StrictlyIncreasing(s: seq<int>) {
    forall i, j :: 0 <= i < j < |s| ==> s[i] < s[j]
  }

  /** No value occurs twice. */
  predicate Distinct(s: seq<int>) {
    forall i, j :: 0 <= i < j < |s| ==> s[i] != s[j]
  }

  lemma AppendAssoc<T>(a: seq<T>, b: seq<T>, c: seq<T>)
    ensures (a + b) + c == a + (b + c)
  {
  }

  lemma IncreasingIsDistinct(s: seq<int>)
    requires StrictlyIncreasing(s)
    ensures Distinct(s)
  {
  }

  /** A sequence lists each value at most once exactly when its multiset counts are at most one. */
  lemma {:induction false} DistinctIffSingleCounts(s: seq<int>)
    ensures Distinct(s) <==> forall x :: multiset(s)[x] <= 1
  {
    if Distinct(s) {
      DistinctHasSingleCounts(s);
    } else {
      var i, j :| 0 <= i < j < |s| && s[i] == s[j];
      assert s == s[..j] + s[j..];
      assert s[..j][i] == s[i];
      assert s[i] in multiset(s[..j]);
      assert s[j..][0] == s[j];
      assert s[j] in multiset(s[j..]);
      assert multiset(s)[s[i]] == multiset(s[..j])[s[i]] + multiset(s[j..])[s[i]];
    }
  }

  lemma {:induction false} DistinctHasSingleCounts(s: seq<int>)
    requires Distinct(s)
    ensures forall x :: multiset(s)[x] <= 1
  {
    if s != [] {
      var t := s[1..];
      assert s == [s[0]] + t;
      assert Distinct(t) by {
        forall i, j | 0 <= i < j < |t| ensures t[i] != t[j] {
          assert t[i] == s[i + 1] && t[j] == s[j + 1];
        }
      }
      DistinctHasSingleCounts(t);
      forall k | 0 <= k < |t| ensures t[k] != s[0] {
        assert t[k] == s[k + 1];
      }
      assert s[0] !in t;
      assert multiset(t)[s[0]] == 0;
      forall x ensures multiset(s)[x] <= 1 {
        assert multiset(s)[x] == multiset([s[0]])[x] + multiset(t)[x];
      }
    }
  }

  /** Splitting a sequence around a pivot: the whole is increasing exactly when both parts are,
      everything before the pivot is below it and everything after it is above it. */
  lemma SplitIncreasing(a: seq<int>, v: int, b: seq<int>)
    ensures StrictlyIncreasing(a + [v] + b) <==>
      && StrictlyIncreasing(a)
      && StrictlyIncreasing(b)
      && (forall x :: x in a ==> x < v)
      && (forall y :: y in b ==> v < y)
  {
    var s := a + [v] + b;
    assert forall i :: 0 <= i < |a| ==> s[i] == a[i];
    assert s[|a|] == v;
    assert forall i :: 0 <= i < |b| ==> s[|a| + 1 + i] == b[i];
    if StrictlyIncreasing(s) {
      forall x | x in a ensures x < v {
        var i :| 0 <= i < |a| && a[i] == x;
      }
      forall y | y in b ensures v < y {
        var i :| 0 <= i < |b| && b[i] == y;
        assert s[|a| + 1 + i] == y;
      }
      forall i, j | 0 <= i < j < |b| ensures b[i] < b[j] {
        assert s[|a| + 1 + i] == b[i] && s[|a| + 1 + j] == b[j];
      }
    }
    if && StrictlyIncreasing(a) && StrictlyIncreasing(b)
       && (forall x :: x in a ==> x < v) && (forall y :: y in b ==> v < y)
    {
      forall i, j | 0 <= i < j < |s| ensures s[i] < s[j] {
        if j < |a| {
        } else if j == |a| {
          assert s[i] in a;
        } else if i < |a| {
          assert s[i] in a;
          assert s[j] == b[j - |a| - 1];
          assert s[j] in b;
        } else if i == |a| {
          assert s[j] == b[j - |a| - 1];
          assert s[j] in b;
        } else {
          assert s[i] == b[i - |a| - 1] && s[j] == b[j - |a| - 1];
        }
      }
    }
  }

  /** Dropping the first element keeps a sequence increasing. */
  lemma IncreasingTail(s: seq<int>)
    requires StrictlyIncreasing(s) && s != []
    ensures StrictlyIncreasing(s[1..])
  {
    var t := s[1..];
    forall i, j | 0 <= i < j < |t| ensures t[i] < t[j] {
      assert t[i] == s[i + 1] && t[j] == s[j + 1];
    }
  }

  /** The first element of an increasing sequence is its least member, and it does not occur
      again later. */
  lemma IncreasingHead(s: seq<int>, x: int)
    requires StrictlyIncreasing(s) && x in s
    ensures s[0] <= x
    ensures x in s[1..] <==> x != s[0]
  {
    var k :| 0 <= k < |s| && s[k] == x;
    if k > 0 {
      assert s[1..][k - 1] == x;
    }
    if x in s[1..] {
      var m :| 0 <= m < |s[1..]| && s[1..][m] == x;
      assert s[m + 1] == x;
    }
  }

  /** Two increasing sequences with the same members are the same sequence: the sorted,
      de-duplicated listing of a set of values is unique. */
  lemma {:induction false} IncreasingUnique(a: seq<int>, b: seq<int>)
    requires StrictlyIncreasing(a) && StrictlyIncreasing(b)
    requires forall x :: x in a <==> x in b
    ensures a == b
    decreases |a|
  {
    assert a != [] ==> a[0] in a;
    assert b != [] ==> b[0] in b;
    if a != [] {
      IncreasingHead(a, b[0]);
      IncreasingHead(b, a[0]);
      assert a[0] == b[0];
      forall x ensures x in a[1..] <==> x in b[1..] {
        if x in a {
          IncreasingHead(a, x);
          IncreasingHead(b, x);
        } else {
          assert x !in a[1..] && x !in b[1..];
        }
      }
      IncreasingTail(a);
      IncreasingTail(b);
      IncreasingUnique(a[1..], b[1..]);
      assert a == [a[0]] + a[1..] && b == [b[0]] + b[1..];
    }
  }
}

=== FILE: traversal.dfy ===
/** The four traversals of trees.py (`preorder`, `inorder`, `postorder` and the queue-driven
    `bfs`) and what they produce. They read only the shape of a tree, so the AVL tree uses them
    unchanged on its shape. */
module Traversal {
  import BinaryTree
  import Sequences

  /** `preorder`: a node's value, then its left subtree, then its right subtree. */
  function Preorder(t: BinaryTree.Tree): (s: seq<int>)
    ensures multiset(s) == BinaryTree.Values(t)
    ensures |s| == BinaryTree.Size(t)
    ensures t.Nil? <==> s == []
    ensures t.Node? ==> s[0] == t.value
  {
    match t
    case Nil => []
    case Node(l, x, r) => [x] + Preorder(l) + Preorder(r)
  }

  /** `inorder`: the left subtree, then the node's value, then the right subtree. */
  function Inorder(t: BinaryTree.Tree): (s: seq<int>)
    ensures multiset(s) == BinaryTree.Values(t)
    ensures |s| == BinaryTree.Size(t)
    ensures t.Nil? <==> s == []
  {
    match t
    case Nil => []
    case Node(l, x, r) => Inorder(l) + [x] + Inorder(r)
  }

  /** `postorder`: both subtrees, then the node's value. */
  function Postorder(t: BinaryTree.Tree): (s: seq<int>)
    ensures multiset(s) == BinaryTree.Values(t)
    ensures |s| == BinaryTree.Size(t)
    ensures t.Nil? <==> s == []
    ensures t.Node? ==> s[|s| - 1] == t.value
  {
    match t
    case Nil => []
    case Node(l, x, r) => Postorder(l) + Postorder(r) + [x]
  }

  /** The inorder listing holds exactly the tree's elements. */
  lemma InorderMembers(t: BinaryTree.Tree)
    ensures forall x :: x in Inorder(t) <==> x in BinaryTree.Elements(t)
  {
    BinaryTree.ElementsAreValues(t);
    assert forall x :: x in Inorder(t) <==> x in multiset(Inorder(t));
  }

  /** Two trees with the same inorder listing hold the same elements. */
  lemma SameInorderSameElements(s: BinaryTree.Tree, t: BinaryTree.Tree)
    requires Inorder(s) == Inorder(t)
    ensures BinaryTree.Elements(s) == BinaryTree.Elements(t)
  {
    InorderMembers(s);
    InorderMembers(t);
    forall x ensures x in BinaryTree.Elements(s) <==> x in BinaryTree.Elements(t) {
      assert x in BinaryTree.Elements(s) <==> x in Inorder(s);
    }
  }

  /** A tree is ordered exactly when its inorder listing is strictly increasing. */
  lemma {:induction false} OrderedIffInorderIncreasing(t: BinaryTree.Tree)
    ensures BinaryTree.Ordered(t) <==> Sequences.StrictlyIncreasing(Inorder(t))
  {
    match t
    case Nil =>
    case Node(l, x, r) =>
      OrderedIffInorderIncreasing(l);
      OrderedIffInorderIncreasing(r);
      InorderMembers(l);
      InorderMembers(r);
      Sequences.SplitIncreasing(Inorder(l), x, Inorder(r));
  }

  /** On an ordered tree, `inorder` lists the tree's elements sorted, each once. */
  lemma InorderIsSortedElements(t: BinaryTree.Tree)
    requires BinaryTree.Ordered(t)
    ensures Sequences.StrictlyIncreasing(Inorder(t))
    ensures forall x :: x in Inorder(t) <==> x in BinaryTree.Elements(t)
  {
    OrderedIffInorderIncreasing(t);
    InorderMembers(t);
  }

  /** The inorder listing of a tree built by insertions is the sorted, de-duplicated sequence
      of the inserted values: it equals every strictly increasing sequence holding exactly
      those values. */
  lemma InorderOfBuildIsSortedInput(vs: seq<int>, sorted: seq<int>)
    requires Sequences.StrictlyIncreasing(sorted)
    requires forall x :: x in sorted <==> x in vs
    ensures Inorder(BinaryTree.Build(vs)) == sorted
  {
    var t := BinaryTree.Build(vs);
    InorderIsSortedElements(t);
    Sequences.IncreasingUnique(Inorder(t), sorted);
  }

  // ---------------------------------------------------------------------------------------
  // Level order

  /** The children of a node that are present, left before right: what `bfs` enqueues after
      visiting it. */
  function Kids(t: BinaryTree.Tree): seq<BinaryTree.Tree> {
    if t.Nil? then []
    else (if t.left.Node? then [t.left] else []) + (if t.right.Node? then [t.right] else [])
  }

  /** Total number of nodes in a sequence of trees. */
  function ForestSize(f: seq<BinaryTree.Tree>): nat {
    if f == [] then 0 else BinaryTree.Size(f[0]) + ForestSize(f[1..])
  }

  lemma {:induction false} ForestSizeConcat(a: seq<BinaryTree.Tree>, b: seq<BinaryTree.Tree>)
    ensures ForestSize(a + b) == ForestSize(a) + ForestSize(b)
    decreases |a|
  {
    if a != [] {
      assert (a + b)[0] == a[0] && (a + b)[1..] == a[1..] + b;
      ForestSizeConcat(a[1..], b);
    } else {
      assert a + b == b;
    }
  }

  /** Visiting a node removes it from the queue and puts its children in: one node fewer. */
  lemma KidsSize(t: BinaryTree.Tree)
    requires t.Node?
    ensures ForestSize(Kids(t)) == BinaryTree.Size(t) - 1
  {
    var ls: seq<BinaryTree.Tree> := if t.left.Node? then [t.left] else [];
    var rs: seq<BinaryTree.Tree> := if t.right.Node? then [t.right] else [];
    ForestSizeConcat(ls, rs);
    assert ForestSize(ls) == BinaryTree.Size(t.left);
    assert ForestSize(rs) == BinaryTree.Size(t.right);
  }

  /** Values of the present trees of a level, left to right. */
  function Roots(f: seq<BinaryTree.Tree>): seq<int> {
    if f == [] then []
    else (if f[0].Node? then [f[0].value] else []) + Roots(f[1..])
  }

  /** The next level: the present children of every tree of `f`, left to right. */
  function Children(f: seq<BinaryTree.Tree>): seq<BinaryTree.Tree> {
    if f == [] then [] else Kids(f[0]) + Children(f[1..])
  }

  lemma {:induction false} ChildrenShrink(f: seq<BinaryTree.Tree>)
    ensures ForestSize(Children(f)) + |Roots(f)| == ForestSize(f)
    ensures |Roots(f)| == 0 ==> Children(f) == []
  {
    if f != [] {
      ChildrenShrink(f[1..]);
      ForestSizeConcat(Kids(f[0]), Children(f[1..]));
      if f[0].Node? {
        KidsSize(f[0]);
      }
    }
  }

  /** Reference level order: the values of the current level, then the level order of the
      next level. */
  function Levels(f: seq<BinaryTree.Tree>): seq<int>
    decreases ForestSize(f), |f|
  {
    if f == [] then []
    else
      ChildrenShrink(f);
      Roots(f) + Levels(Children(f))
  }

  /** The level order of a tree: its root level first, each level left to right. */
  function LevelOrder(t: BinaryTree.Tree): seq<int> {
    Levels([t])
  }

  /** What the `bfs` loop appends to its result from the moment its queue holds `q`. */
  function QueueOrder(q: seq<BinaryTree.Tree>): seq<int>
    decreases ForestSize(q), |q|
  {
    if q == [] then []
    else if q[0].Nil? then QueueOrder(q[1..])
    else
      ForestSizeConcat(q[1..], Kids(q[0]));
      KidsSize(q[0]);
      [q[0].value] + QueueOrder(q[1..] + Kids(q[0]))
  }

  /** Every tree of the sequence is present (no empty tree is ever queued). */
  predicate AllPresent(q: seq<BinaryTree.Tree>) {
    forall i :: 0 <= i < |q| ==> q[i].Node?
  }

  lemma PresentAfterStep(q: seq<BinaryTree.Tree>)
    requires q != [] && AllPresent(q)
    ensures AllPresent(q[1..] + Kids(q[0]))
  {
    var rest, k := q[1..], Kids(q[0]);
    var joined := rest + k;
    forall i | 0 <= i < |joined| ensures joined[i].Node? {
      if i < |rest| {
        assert joined[i] == q[i + 1];
      } else {
        assert joined[i] == k[i - |rest|];
      }
    }
  }

  /** One turn of the `bfs` loop: the front node's value is emitted, its present children
      join the back of the queue, and the queue's node count drops by one. */
  lemma QueueStep(q: seq<BinaryTree.Tree>)
    requires q != [] && q[0].Node?
    ensures QueueOrder(q) == [q[0].value] + QueueOrder(q[1..] + Kids(q[0]))
    ensures ForestSize(q[1..] + Kids(q[0])) < ForestSize(q)
  {
    ForestSizeConcat(q[1..], Kids(q[0]));
    KidsSize(q[0]);
  }

  /** `QueueStep` for a queue written as its front tree followed by the rest. */
  lemma QueueFront(x: BinaryTree.Tree, rest: seq<BinaryTree.Tree>)
    requires x.Node?
    ensures QueueOrder([x] + rest) == [x.value] + QueueOrder(rest + Kids(x))
  {
    var q := [x] + rest;
    assert q[0] == x && q[1..] == rest;
    QueueStep(q);
  }

  /** Draining the queue front `a` lists its values and sends their children to the back. */
  lemma {:induction false} QueueOrderSplit(a: seq<BinaryTree.Tree>, b: seq<BinaryTree.Tree>)
    ensures QueueOrder(a + b) == Roots(a) + QueueOrder(b + Children(a))
    decreases |a|
  {
    if a == [] {
      assert a + b == b && b + Children(a) == b;
    } else {
      var x, a' := a[0], a[1..];
      assert a + b == [x] + (a' + b);
      if x.Nil? {
        QueueOrderSplit(a', b);
        assert ([x] + (a' + b))[1..] == a' + b;
        assert Roots(a) == Roots(a');
        assert Children(a) == Children(a');
      } else {
        QueueOrderSplit(a', b + Kids(x));
        QueueOrderSplitStep(x, a', b);
        var later := b + Kids(x) + Children(a');
        assert Roots(a) == [x.value] + Roots(a');
        assert later == b + Children(a);
        Sequences.AppendAssoc([x.value], Roots(a'), QueueOrder(later));
      }
    }
  }

  /** The inductive step of `QueueOrderSplit` when the front tree `x` is present. */
  lemma {:induction false} QueueOrderSplitStep(x: BinaryTree.Tree, rest: seq<BinaryTree.Tree>, b: seq<BinaryTree.Tree>)
    requires x.Node?
    requires QueueOrder(rest + (b + Kids(x))) == Roots(rest) + QueueOrder(b + Kids(x) + Children(rest))
    ensures QueueOrder([x] + (rest + b)) == [x.value] + (Roots(rest) + QueueOrder(b + Kids(x) + Children(rest)))
  {
    QueueFront(x, rest + b);
    Sequences.AppendAssoc(rest, b, Kids(x));
  }

  /** The queue-driven order coincides with the level-by-level reference order. */
  lemma {:induction false} QueueOrderIsLevels(f: seq<BinaryTree.Tree>)
    ensures QueueOrder(f) == Levels(f)
    decreases ForestSize(f), |f|
  {
    if f != [] {
      QueueOrderSplit(f, []);
      assert f + [] == f && [] + Children(f) == Children(f);
      ChildrenShrink(f);
      QueueOrderIsLevels(Children(f));
    }
  }

  /** All values of a sequence of trees, with multiplicity. */
  function ForestValues(f: seq<BinaryTree.Tree>): multiset<int> {
    if f == [] then multiset{} else BinaryTree.Values(f[0]) + ForestValues(f[1..])
  }

  lemma {:induction false} ForestValuesConcat(a: seq<BinaryTree.Tree>, b: seq<BinaryTree.Tree>)
    ensures ForestValues(a + b) == ForestValues(a) + ForestValues(b)
    decreases |a|
  {
    if a != [] {
      assert (a + b)[0] == a[0] && (a + b)[1..] == a[1..] + b;
      ForestValuesConcat(a[1..], b);
    } else {
      assert a + b == b;
    }
  }

  lemma ForestValuesOfOne(t: BinaryTree.Tree)
    ensures ForestValues([t]) == BinaryTree.Values(t)
  {
    assert [t][1..] == [];
  }

  /** The present children of a node hold all of its values but its own. */
  lemma KidsValues(t: BinaryTree.Tree)
    requires t.Node?
    ensures ForestValues(Kids(t)) + multiset{t.value} == BinaryTree.Values(t)
  {
    var ls: seq<BinaryTree.Tree> := if t.left.Node? then [t.left] else [];
    var rs: seq<BinaryTree.Tree> := if t.right.Node? then [t.right] else [];
    assert Kids(t) == ls + rs;
    ForestValuesConcat(ls, rs);
    ForestValuesOfOne(t.left);
    ForestValuesOfOne(t.right);
    assert ForestValues(ls) == BinaryTree.Values(t.left);
    assert ForestValues(rs) == BinaryTree.Values(t.right);
  }

  lemma {:induction false} ChildrenValues(f: seq<BinaryTree.Tree>)
    ensures multiset(Roots(f)) + ForestValues(Children(f)) == ForestValues(f)
  {
    if f != [] {
      var t, f' := f[0], f[1..];
      ChildrenValues(f');
      ForestValuesConcat(Kids(t), Children(f'));
      assert Children(f) == Kids(t) + Children(f');
      assert ForestValues(f) == BinaryTree.Values(t) + ForestValues(f');
      if t.Node? {
        KidsValues(t);
        assert Roots(f) == [t.value] + Roots(f');
        assert multiset(Roots(f)) == multiset{t.value} + multiset(Roots(f'));
      } else {
        assert Roots(f) == Roots(f');
        assert Kids(t) == [];
      }
    }
  }

  /** The level order lists every value of the forest once per occurrence. */
  lemma {:induction false} LevelsValues(f: seq<BinaryTree.Tree>)
    ensures multiset(Levels(f)) == ForestValues(f)
    decreases ForestSize(f), |f|
  {
    if f != [] {
      ChildrenShrink(f);
      ChildrenValues(f);
      LevelsValues(Children(f));
    }
  }

  /** Shape of the level order of one tree: the tree's values, starting with the root. */
  lemma LevelOrderShape(t: BinaryTree.Tree)
    ensures multiset(LevelOrder(t)) == BinaryTree.Values(t)
    ensures |LevelOrder(t)| == BinaryTree.Size(t)
    ensures t.Nil? <==> LevelOrder(t) == []
    ensures t.Node? ==> LevelOrder(t)[0] == t.value
  {
    LevelsValues([t]);
    assert ForestValues([t]) == BinaryTree.Values(t);
    assert |multiset(LevelOrder(t))| == |BinaryTree.Values(t)|;
    SizeIsValuesCount(t);
    if t.Node? {
      assert Roots([t]) == [t.value];
    }
  }

  lemma {:induction false} SizeIsValuesCount(t: BinaryTree.Tree)
    ensures |BinaryTree.Values(t)| == BinaryTree.Size(t)
  {
    match t
    case Nil =>
    case Node(l, _, r) =>
      SizeIsValuesCount(l);
      SizeIsValuesCount(r);
  }

  /** What one turn of the `bfs` loop preserves: every queued tree is present, and the values
      emitted so far followed by what the queue still yields make up the whole order. */
  lemma BfsStep(t: BinaryTree.Tree, result: seq<int>, queue: seq<BinaryTree.Tree>)
    requires queue != [] && AllPresent(queue)
    requires result + QueueOrder(queue) == QueueOrder([t])
    ensures AllPresent(queue[1..] + Kids(queue[0]))
    ensures (result + [queue[0].value]) + QueueOrder(queue[1..] + Kids(queue[0])) == QueueOrder([t])
    ensures ForestSize(queue[1..] + Kids(queue[0])) < ForestSize(queue)
  {
    QueueStep(queue);
    PresentAfterStep(queue);
    var emitted, later := [queue[0].value], QueueOrder(queue[1..] + Kids(queue[0]));
    Sequences.AppendAssoc(result, emitted, later);
  }

  /** `bfs`: a FIFO queue seeded with the root; each dequeued node's value is recorded and its
      present children are enqueued, left before right. */
  method Bfs(t: BinaryTree.Tree) returns (result: seq<int>)
    ensures result == LevelOrder(t)
    ensures multiset(result) == BinaryTree.Values(t)
    ensures t.Nil? <==> result == []
    ensures t.Node? ==> result[0] == t.value
  {
    if t.Nil? {
      LevelOrderShape(t);
      return [];
    }
    var queue := [t];
    result := [];
    while queue != []
      invariant AllPresent(queue)
      invariant result + QueueOrder(queue) == QueueOrder([t])
      decreases ForestSize(queue)
    {
      var current := queue[0];
      BfsStep(t, result, queue);
      queue := queue[1..] + Kids(current);
      result := result + [current.value];
    }
    assert result == QueueOrder([t]);
    QueueOrderIsLevels([t]);
    LevelOrderShape(t);
  }

  /** On an ordered tree every traversal lists each element exactly once. */
  lemma TraversalsListElementsOnce(t: BinaryTree.Tree)
    requires BinaryTree.Ordered(t)
    ensures Sequences.Distinct(Preorder(t)) && Sequences.Distinct(Inorder(t))
    ensures Sequences.Distinct(Postorder(t)) && Sequences.Distinct(LevelOrder(t))
    ensures forall x :: x in Preorder(t) <==> x in BinaryTree.Elements(t)
    ensures forall x :: x in Postorder(t) <==> x in BinaryTree.Elements(t)
    ensures forall x :: x in LevelOrder(t) <==> x in BinaryTree.Elements(t)
  {
    InorderIsSortedElements(t);
    Sequences.IncreasingIsDistinct(Inorder(t));
    Sequences.DistinctIffSingleCounts(Inorder(t));
    LevelOrderShape(t);
    Sequences.DistinctIffSingleCounts(Preorder(t));
    Sequences.DistinctIffSingleCounts(Postorder(t));
    Sequences.DistinctIffSingleCounts(LevelOrder(t));
    BinaryTree.ElementsAreValues(t);
    assert forall x :: x in Preorder(t) <==> x in multiset(Preorder(t));
    assert forall x :: x in Postorder(t) <==> x in multiset(Postorder(t));
    assert forall x :: x in LevelOrder(t) <==> x in multiset(LevelOrder(t));
  }
}
